=== FILE: README.md ===
# Thailand kitchen-waste prototype — Dafny model

This project models the decision logic of a hotel-kitchen waste prototype.

- **Demand engine.** Turns expected guests, occupancy, weather, day type, event level and the target meal into a baseline and a recommended number of portions.
- **Savings estimate.** Derives a waste-reduction percentage, the money saved and the waste avoided from the recommendation.
- **Green Star badge.** Scores that reduction together with a usage streak.
- **Smart bin.** Checks which bin a detected food item belongs in.
- **Recycler routing.** Routes a waste stream to a partner.
- **Synthetic data.** Generates the data behind the history chart, the mock training history and the demo ridge-regression predictor.
- **Waste-exchange page.** Handles the listings and community-centre subscriptions: create, claim, delete, clear, subscribe, and select listings and count notifications.

Python functions become pure Dafny functions, except the three whose loops stay loops: `train_and_predict_demo_ml` is the method `TrainAndPredict`, which calls the method `GenerateDataset`; `generate_rows` is `GenerateRows`; `generate_fake_history` is `GenerateFakeHistory`. The notification loop of the page becomes the method `SendNotifications`. List comprehensions become `Filter`. The partner scan of `choose_partner` is instead the recursive function `FirstAccepting`. Python floats are exact `real`s. The Python built-ins the code relies on are written out in `Numeric`:

- `round` rounds halves to even;
- `math.ceil` becomes `Ceil`;
- `int()` on a float truncates toward zero;
- `round(x, 2)` becomes `RoundTo2`.

Random draws are parameters, already scaled to the range `uniform` would give. The exception is `ClassifyDemo`, which takes unit draws in [0, 1] and scales them itself. Dates are proleptic ordinals as in Python's `date.toordinal`, and the weekday is `(ordinal + 6) % 7`. The formatted messages are datatypes that carry the values they interpolate.

Modules: `Basics` (Option, Result, Filter), `Numeric`, `Text` (ASCII lower-casing, substring search), `DemandEngine`, `Savings`, `GreenStar`, `SmartBin`, `Recycler`, `DemoMl`, `MockHistory`, `History`, `Listings`.

The demo predictor fits on all 120 synthetic samples and reports no MAE or R². The usage streak is only an integer input to `evaluate_green_star`; nothing in the code tracks it.

## Model

| member | source | states |
|---|---|---|
| Numeric.Clamp | app/logic/demand_engine.py:23-24 | result lies in [lo, hi] when lo <= hi, equals x when x is inside, and equals the violated bound otherwise |
| Numeric.Round | app/logic/demand_engine.py:71 | Python's round: result is within 0.5 of x, and an exact tie goes to the even neighbour |
| Numeric.RoundMonotone | app/logic/demand_engine.py:71 | rounding never reverses the order of two values |
| Numeric.Ceil | app/logic/demand_engine.py:82 | math.ceil: the least integer not below x |
| Numeric.Trunc | app/logic/history.py:17-18 | int() of a float truncates toward zero: never farther from zero than x and within 1 of it |
| Numeric.TruncMonotone | app/logic/history.py:17-18 | truncation never reverses the order of two values |
| Numeric.RoundTo2 | app/logic/history.py:29 | `round(x, 2)`: a whole number of hundredths, namely Python's round of 100x, so within 0.005 of x |
| Numeric.RoundTo2Within | app/logic/generate_mock_history.py:72 | rounding to two decimals keeps a value inside integer-hundredths bounds that held before |
| Text.Lower | app/logic/demand_engine.py:28 | str.lower on ASCII letters: same length, each character lowered |
| Text.LowerIdempotent | app/logic/demand_engine.py:28 | lowering twice is lowering once |
| Text.Contains | app/logic/demand_engine.py:58-61 | Python's `in` on strings: true exactly when the pattern occurs at some position |
| Basics.Filter | app/app.py:38 | list comprehension with a condition: every kept element is from the input and passes, and every passing input element is kept |
| Basics.FilterConcat | app/app.py:38 | filtering a concatenation filters each part, so survivors keep their order |
| Basics.FilterIdempotent | app/app.py:38 | filtering twice by the same test is filtering once |
| Basics.FilterPartition | app/app.py:61-63 | when every element passes exactly one of two tests, the two filters' sizes add up to the total |
| DemandEngine.WeatherFactor | app/logic/demand_engine.py:27-35 | rainy/storm/cloudy factors 0.88/0.82/0.96, anything else 1.00, any case |
| DemandEngine.DayFactor | app/logic/demand_engine.py:38-44 | weekend 1.08, holiday 1.12, anything else 1.00 |
| DemandEngine.EventFactor | app/logic/demand_engine.py:47-53 | high 1.15, medium 1.07, anything else 1.00 |
| DemandEngine.MealBuffer | app/logic/demand_engine.py:56-62 | 0.95 when the meal name contains "breakfast", else 0.97 when it contains "lunch", else 0.98 |
| DemandEngine.Baseline | app/logic/demand_engine.py:68-72 | at least 10, and within 0.5 of guests × (0.85 + 0.30 × occupancy) unless floored at 10 |
| DemandEngine.Multiplier | app/logic/demand_engine.py:74-80 | the clamped product of the four factors lies in [0.70, 1.35] |
| DemandEngine.Recommended | app/logic/demand_engine.py:82-83 | at least 10, never below baseline × multiplier, and less than one portion above it unless floored |
| DemandEngine.EstimatePortions | app/logic/demand_engine.py:65-97 | baseline and recommendation are at least 10; the multiplier lies in [0.70, 1.35]; the baseline stays within rounding of guests × (0.85 + 0.30 × occupancy) unless floored at 10; the recommendation is the ceiling of baseline × multiplier, floored at 10; six explanation lines in the source's order carrying these values |
| DemandEngine.RecommendationCoversDemand | app/logic/demand_engine.py:82-83 | the recommendation never falls below baseline × multiplier and exceeds it by less than one portion unless it is the floor of 10 |
| DemandEngine.RawMultiplierBounds | app/logic/demand_engine.py:79 | the unclamped product of the four factors always lies in [0.779, 1.26224] |
| DemandEngine.ClampNeverBinds | app/logic/demand_engine.py:80 | for every input the [0.70, 1.35] clamp leaves the product unchanged |
| DemandEngine.LeastMultiplier | app/logic/demand_engine.py:27-62 | breakfast, storm, weekday, no event reaches the least multiplier 0.779 |
| DemandEngine.GreatestMultiplier | app/logic/demand_engine.py:27-62 | dinner, sunny, holiday, high event reaches the greatest multiplier 1.26224 |
| DemandEngine.FactorsIgnoreCase | app/logic/demand_engine.py:28-57 | the factors depend only on the lower-cased labels |
| DemandEngine.UnknownLabelsAreNeutral | app/logic/demand_engine.py:35-62 | unrecognised weather, day or event labels give factor 1.00 and an unrecognised meal gives 0.98 |
| DemandEngine.BreakfastTakesPrecedence | app/logic/demand_engine.py:58-61 | a meal name containing both "breakfast" and "lunch" gets the breakfast buffer |
| DemandEngine.MixedCaseExample | app/logic/demand_engine.py:27-62 | "RaInY", "HOLIDAY", "Medium", "Lunch Buffet" give 0.88, 1.12, 1.07, 0.97; "STORM" gives 0.82 and "Breakfast & Lunch Buffet" 0.95 |
| DemandEngine.NegativeGuestsAsZero | app/logic/demand_engine.py:68 | a negative guest count gives the same output as zero guests |
| DemandEngine.OccupancyClamped | app/logic/demand_engine.py:69 | occupancy above 1 or below 0 gives the same output as 1 or 0 |
| DemandEngine.BaselineMonotoneInGuests | app/logic/demand_engine.py:68-72 | more expected guests never give a smaller baseline |
| DemandEngine.NoGuestsGiveFloor | app/logic/demand_engine.py:68-83 | with no guests the baseline is the floor of 10 |
| Savings.ReductionPct | app/logic/savings.py:26-34 | no reduction gives lo × 0.6; otherwise, when lo <= hi, exactly delta + 0.03 clamped to [lo, hi] (so delta + 0.03 itself when it lies inside), and never above hi in any case |
| Savings.AtLeastOne | app/logic/savings.py:22-23 | `max(1, n)`: at least 1 and at least n, and n itself from 1 on |
| Savings.NonNegative | app/logic/savings.py:24 | `max(0.0, cost)`: non-negative, at least x, and x itself when x is non-negative |
| Savings.EstimateSavings | app/logic/savings.py:12-53 | baseline and recommendation below 1 count as 1 and a negative cost as 0; avoided portions are baseline × overproduction × reduction; savings are those portions × cost and mass is portions × grams / 1000; three notes in the source's order |
| Savings.ReductionPctRange | app/logic/savings.py:26-34 | for 0 <= lo <= hi the percentage lies in [lo × 0.6, hi] |
| Savings.DefaultReductionPctRange | app/logic/savings.py:17-34 | with the default range the percentage lies in [0.048, 0.15] |
| Savings.ReductionPctMonotone | app/logic/savings.py:29-34 | in the reducing branch a larger relative cut (baseline − rec) / baseline never gives a smaller percentage |
| Savings.SavingsNonNegative | app/logic/savings.py:22-43 | with non-negative parameters, savings and avoided mass are non-negative |
| Savings.SavingsAndMassAgree | app/logic/savings.py:39-43 | savings × grams equals avoided kg × 1000 × effective cost |
| GreenStar.DayPoints | app/logic/green_star.py:23 | streak points are 0 for non-positive streaks, 6 per day for 1 to 6 days, at most 40, and exactly 40 from a 7-day streak on |
| GreenStar.EvaluateGreenStar | app/logic/green_star.py:11-32 | the score is 60 when the reduction meets its threshold (else 0) plus DayPoints of the streak; score in [0, 100] and even; score >= 60 exactly when the reduction meets the threshold; active exactly when reduction and streak both meet their thresholds; the reason follows activity |
| GreenStar.ScoreMonotone | app/logic/green_star.py:20-23 | a higher reduction and a longer streak never lower the score |
| GreenStar.NegativeDaysScoreAsZero | app/logic/green_star.py:23 | a negative streak scores like a zero streak |
| GreenStar.DefaultActiveIffFullScore | app/logic/green_star.py:11-32 | with the default thresholds the star is active exactly when the score is 100 |
| GreenStar.ScoreIgnoresMinDays | app/logic/green_star.py:20-23 | the minimum-days threshold does not affect the score |
| GreenStar.FullScoreWithoutStar | app/logic/green_star.py:11-32 | a raised day threshold can leave a full score of 100 without the star |
| SmartBin.CatalogueWellFormed | app/logic/smart_bin.py:12-22 | seven catalogue items, each mapped to one of the bins and none to Landfill |
| SmartBin.RequiredBin | app/logic/smart_bin.py:35 | a catalogued item's bin from the table, Landfill for anything else |
| SmartBin.EvaluateBin | app/logic/smart_bin.py:34-51 | correct exactly when the chosen bin is the required one; confidence 1.0; the message names the item and the required bin, plus the chosen bin when wrong |
| SmartBin.CatalogueItemOnlyInItsBin | app/logic/smart_bin.py:12-36 | a catalogued item is correct only in its table bin |
| SmartBin.UnknownItemOnlyInLandfill | app/logic/smart_bin.py:35-36 | an uncatalogued item is correct only in Landfill |
| SmartBin.LandfillMeansUncatalogued | app/logic/smart_bin.py:12-36 | Landfill is correct exactly for uncatalogued items |
| SmartBin.OtherItems | app/logic/smart_bin.py:30 | every catalogue item other than the selected one, each exactly once, and nothing else (at least six) |
| SmartBin.ClassifyDemo | app/logic/smart_bin.py:24-32 | below the 0.85 roll the selected item with confidence in [0.78, 0.96]; otherwise a different catalogue item with confidence in [0.45, 0.75] |
| Recycler.DemoPartners | app/logic/recycler.py:12-35 | the three partners R1, R2, R3 accept Compost, Biogas, Recycle respectively |
| Recycler.CatalogueShape | app/logic/recycler.py:12-35 | the partner ids are distinct and each partner accepts exactly one stream |
| Recycler.FirstAccepting | app/logic/recycler.py:39-41 | the index of the first partner accepting the stream, or none when no partner accepts it |
| Recycler.ChoosePartner | app/logic/recycler.py:37-42 | the first partner that accepts the stream; the first partner when none does |
| Recycler.StreamRouting | app/logic/recycler.py:12-42 | Compost, Biogas and Recycle go to R1, R2 and R3 |
| Recycler.FallbackDetectable | app/logic/recycler.py:39-42 | the chosen partner accepts the stream exactly when some partner does |
| Recycler.UnknownStreamFallsBack | app/logic/recycler.py:42 | the streams "Landfill" and "Unknown", which no partner accepts, are sent to R1, which does not accept them |
| DemoMl.Encode | app/logic/demo_ml.py:14-26 | a code table lookup with default 1.00 |
| DemoMl.EncodeWeather | app/logic/demo_ml.py:14-16 | codes lie in [0.86, 1.00]; unknown labels give 1.00 |
| DemoMl.EncodeDay | app/logic/demo_ml.py:19-21 | codes lie in [1.00, 1.10]; unknown labels give 1.00 |
| DemoMl.EncodeEvent | app/logic/demo_ml.py:24-26 | codes lie in [1.00, 1.15]; unknown labels give 1.00 |
| DemoMl.EncodersExact | app/logic/demo_ml.py:14-26 | the encoder constants, and that the encoders are case-sensitive |
| DemoMl.JitterBounds | app/logic/demo_ml.py:47-49 | a jittered code stays within its relative band |
| DemoMl.GenerateSample | app/logic/demo_ml.py:44-66 | each synthetic sample has non-negative guests, occupancy in [0, 1], a target of at least 10, and factor codes within their jitter bands |
| DemoMl.GenerateDataset | app/logic/demo_ml.py:43-66 | 120 samples, the i-th generated from the i-th draw |
| DemoMl.DesignMatrix | app/logic/demo_ml.py:71 | each row is a leading 1.0 followed by the sample's five features |
| DemoMl.Targets | app/logic/demo_ml.py:69 | the targets are the samples' demands as reals |
| DemoMl.QueryVector | app/logic/demo_ml.py:78-89 | the query row holds 1.0, the raw guests and occupancy, and the three codes |
| DemoMl.FinalPrediction | app/logic/demo_ml.py:94 | at least 10 and within 0.5 of the prediction unless floored |
| DemoMl.TrainAndPredict | app/logic/demo_ml.py:29-100 | ok is always true and the prediction is at least 10, computed from the ridge weights fitted to the generated design matrix and targets |
| DemoMl.QueryOccupancyUnclamped | app/logic/demo_ml.py:45-83 | training occupancy is clamped to [0, 1] but the query's is not |
| MockHistory.DayOfWeek | app/logic/generate_mock_history.py:14 | Python's weekday of a date ordinal, in 0..6 |
| MockHistory.PickDayType | app/logic/generate_mock_history.py:13-16 | Weekend exactly on Saturday and Sunday, never Holiday |
| MockHistory.ClampOccupancy | app/logic/generate_mock_history.py:10-11 | the occupancy used at line 40 lies in [0.30, 0.98] and is unchanged when already inside |
| MockHistory.DayTypeOf | app/logic/generate_mock_history.py:25-29 | Holiday exactly when the holiday roll is below 0.06, otherwise the weekday/weekend label of the date |
| MockHistory.OccupancyOf | app/logic/generate_mock_history.py:35-40 | the day's occupancy lies in [0.30, 0.98] |
| MockHistory.ExpectedGuestsOf | app/logic/generate_mock_history.py:43-44 | the expected guest count is never negative |
| MockHistory.DayFactorOf | app/logic/generate_mock_history.py:48 | the day factor is 1.0, 1.08 or 1.12 |
| MockHistory.EventFactorOf | app/logic/generate_mock_history.py:49 | the event factor is 1.0, 1.06 or 1.12 |
| MockHistory.WeatherFactorOf | app/logic/generate_mock_history.py:50 | the weather factor is 1.0, 0.96 or 0.92 |
| MockHistory.TrueNeed | app/logic/generate_mock_history.py:52-53 | the true need is at least 10 |
| MockHistory.Portions | app/logic/generate_mock_history.py:55-60 | a marked-up portion count is at least 10 |
| MockHistory.ActualCooked | app/logic/generate_mock_history.py:63-67 | the cooked count is at least 10 on either branch |
| MockHistory.MockRowOf | app/logic/generate_mock_history.py:23-79 | holiday exactly on a roll below 0.06; otherwise Weekend exactly on weekends; occupancy in [0.30, 0.98]; guests non-negative; every portion count at least 10 |
| MockHistory.BaselineCoversRecommendation | app/logic/generate_mock_history.py:55-60 | the baseline is never below the recommendation, because the kitchen overproduces |
| MockHistory.OvercookingNeverUndercuts | app/logic/generate_mock_history.py:63-67 | on the overcooking branch the kitchen cooks at least the recommendation |
| MockHistory.GenerateRows | app/logic/generate_mock_history.py:18-81 | one row per day on consecutive dates ending today, the i-th row built from the i-th draws |
| History.JitteredPortions | app/logic/history.py:17-18 | a jittered count is at least 10 |
| History.JitteredMass | app/logic/history.py:20-23 | jittered avoided mass is never negative |
| History.HistoryRowOf | app/logic/history.py:15-30 | a row carries its date, counts of at least 10 and a non-negative mass |
| History.GenerateFakeHistory | app/logic/history.py:4-32 | `days` rows (none for a non-positive count) on increasing dates ending today, each count at least 10 and each mass non-negative |
| Listings.ClearListings | app/app.py:32-33 | clearing leaves no listings |
| Listings.DeleteListingById | app/app.py:36-39 | survivors all have other ids and come from the list; every listing with another id survives; survivors plus deleted equal the total |
| Listings.DeletePreservesOrder | app/app.py:38 | deletion distributes over concatenation, so order is kept |
| Listings.DeleteAbsentId | app/app.py:38 | deleting an id nobody has changes nothing |
| Listings.DeleteIdempotent | app/app.py:38 | deleting twice is deleting once |
| Listings.CreateListing | app/app.py:82-96 | refused exactly when the organisation name or the location is empty; otherwise appends one available, unclaimed listing with the given fields |
| Listings.CreateAddsQuantity | app/app.py:64-96 | creating a listing adds its quantity to the dashboard's total kg |
| Listings.ClaimListing | app/app.py:121-131 | refused when the listing is not available, or without a claimer; otherwise that listing alone becomes claimed by the claimer |
| Listings.ClaimKeepsTotalKg | app/app.py:64-128 | claiming leaves the total kg unchanged |
| Listings.ApplyPreservesWellFormed | app/app.py:32-131 | create, claim, delete and clear keep every listing either available and unclaimed or claimed by a named claimer |
| Listings.ReplayWellFormed | app/app.py:32-131 | after any sequence of page actions every listing is well formed |
| Listings.Apply | app/app.py:32-131 | create adds one listing exactly when name and location are given and otherwise changes nothing; claim keeps the length; delete never adds; clear empties |
| Listings.Replay | app/app.py:32-131 | a history of actions never leaves more listings than it has actions |
| Listings.AvailablePlusClaimedIsTotal | app/app.py:61-63 | for well-formed listings the Available and Claimed counts add up to the total |
| Listings.CountStatus | app/app.py:62-63 | the count never exceeds the total, and is 0 exactly when no listing has that status |
| Listings.TotalKg | app/app.py:64 | the total is non-negative when all quantities are, and at least the number of listings when each is at least 1 kg |
| Listings.Subscribe | app/app.py:156-161 | refused exactly when the name is empty or no waste type is chosen; otherwise appends the subscriber |
| Listings.TargetListings | app/app.py:171-175 | exactly the listings dated that day and still available |
| Listings.ClaimedNeverAnnounced | app/app.py:127-175 | a listing just claimed is not announced for any date |
| Listings.MatchedListings | app/app.py:188-191 | exactly the announced listings whose waste type is among the subscriber's interests |
| Listings.HasMatchMeans | app/app.py:188-193 | a subscriber matches exactly when some announced listing's waste type is among its interests |
| Listings.SendNotifications | app/app.py:180-201 | no subscribers and no listings are reported as such; otherwise the count is the number of subscribers with a match, never more than the number of subscribers |

## Left out

- File I/O: the JSON listing and subscriber files are lists passed in and returned; `ensure_file`, `load_json` and `save_json` are not modelled. Malformed JSON is not modelled either.
- Streamlit: widgets, reruns and messages are not modelled. A claim is addressed by its position in the list, as the per-item button does. The "claimed by" display fallback `'-'` is not modelled.
- `uuid4` and `date.today()` are parameters (`id`, `today`).
- Dates are ordinals or opaque ISO strings; calendar formatting is not modelled.
- Randomness: `random.Random`, `random.seed`, `rng.choice` and `rng.choices` are not modelled.
  - Every draw is a parameter that already lies in its range.
  - The order in which the generator is consumed is not modelled.
  - The weights of the weighted choices are not modelled; any label may be drawn.
  - The seed that `classify_demo` derives from `hash()` is not modelled.
- `np.linalg.solve`: the ridge fit (X^T X + I) w = X^T y is a function parameter. Nothing is claimed about the fitted weights.
- DemoMl.TrainAndPredict: the constant note string is not modelled.
- Floating point: all arithmetic is on exact reals. Binary rounding of values such as 0.1 is not modelled, so a product that sits exactly on a tie can round differently in the model. The rounding and threshold results hold for exact arithmetic.
- Text.Lower: lowers ASCII letters only. Python's Unicode case mapping for other characters is not modelled.
- Formatting: f-string text such as `:.2f`, `:.0f` and emoji is not modelled. Messages and notes are datatypes holding the interpolated values.
- The dashboard's pandas date parsing and the per-waste-type bar chart are not modelled. The counts and the total kg are modelled.
- "Clear ALL subscribers" is not modelled separately: it stores the empty list, as ClearListings does for listings.
- The notification page's per-subscriber messages are not modelled, only the count.
- `generate_mock_history.main` is not modelled, because it writes CSV output and prints.
- MockHistory.GenerateRows: dates are unbounded integers. Python raises OverflowError when a date leaves years 1 to 9999; the model returns rows there instead.
- History.GenerateFakeHistory: dates are unbounded integers. Python raises OverflowError when a date leaves years 1 to 9999; the model returns rows there instead.
- `bin_storage.py` is not part of this model, because it is file I/O.
- Counting consecutive days of use is not modelled: no code counts them, and the streak reaches `evaluate_green_star` as a plain integer.
- MockHistory.MockRowOf: `round(occupancy_rate, 2)` of the stored row is modelled on exact reals.
- Savings.SavingsNonNegative: also requires the upper reduction bound to be non-negative, because a negative upper bound makes the reduction negative.

=== FILE: basics.dfy ===
/** Small shared vocabulary: optional values, success-or-error results and an
    order-preserving filter, used by every module that models a list
    comprehension of the application. */
module Basics {

  /** A value that may be absent (Python's `None`). */
  datatype Option<T> = None | Some(value: T)

  /** The outcome of an operation that can be refused with a reason. */
  datatype Result<T, E> = Ok(value: T) | Err(error: E)

  /** `[x for x in s if keep(x)]`: keeps the elements satisfying `keep`, in order. */
  function Filter<T>(s: seq<T>, keep: T -> bool): (r: seq<T>)
    ensures |r| <= |s|
    ensures forall i :: 0 <= i < |r| ==> r[i] in s && keep(r[i])
    ensures forall i :: 0 <= i < |s| && keep(s[i]) ==> s[i] in r
  {
    if |s| == 0 then []
    else (if keep(s[0]) then [s[0]] else []) + Filter(s[1..], keep)
  }

  /** Filtering a concatenation filters each part: the survivors keep their
      relative order. */
  lemma {:induction false} FilterConcat<T>(a: seq<T>, b: seq<T>, keep: T -> bool)
    ensures Filter(a + b, keep) == Filter(a, keep) + Filter(b, keep)
  {
    if |a| == 0 {
      assert a + b == b;
    } else {
      assert (a + b)[1..] == a[1..] + b;
      FilterConcat(a[1..], b, keep);
    }
  }

  /** Filtering twice with the same test changes nothing. */
  lemma {:induction false} FilterIdempotent<T>(s: seq<T>, keep: T -> bool)
    ensures Filter(Filter(s, keep), keep) == Filter(s, keep)
  {
    if |s| != 0 {
      FilterIdempotent(s[1..], keep);
      var head := if keep(s[0]) then [s[0]] else [];
      FilterConcat(head, Filter(s[1..], keep), keep);
      if keep(s[0]) {
        assert [s[0]][1..] == [];
      }
    }
  }

  /** When every element passes, the filter is the identity. */
  lemma {:induction false} FilterKeepsAll<T>(s: seq<T>, keep: T -> bool)
    requires forall i :: 0 <= i < |s| ==> keep(s[i])
    ensures Filter(s, keep) == s
  {
    if |s| != 0 {
      FilterKeepsAll(s[1..], keep);
      assert [s[0]] + s[1..] == s;
    }
  }

  /** When every element passes exactly one of two tests, the two filters
      split the sequence between them. */
  lemma {:induction false} FilterPartition<T>(s: seq<T>, keep: T -> bool, drop: T -> bool)
    requires forall i :: 0 <= i < |s| ==> (drop(s[i]) <==> !keep(s[i]))
    ensures |Filter(s, keep)| + |Filter(s, drop)| == |s|
  {
    if |s| != 0 {
      FilterPartition(s[1..], keep, drop);
    }
  }

  /** No element occurs twice. */
  predicate Distinct<T(==)>(s: seq<T>)
  {
    forall i, j :: 0 <= i < j < |s| ==> s[i] != s[j]
  }

  /** Dropping every copy of one value from a duplicate-free sequence removes
      at most one element. */
  lemma {:induction false} FilterOutOne<T>(s: seq<T>, x: T)
    requires Distinct(s)
    ensures |Filter(s, k => k != x)| >= |s| - 1
  {
    if |s| != 0 {
      if s[0] == x {
        assert forall i :: 0 <= i < |s[1..]| ==> s[1..][i] != x;
        FilterKeepsAll(s[1..], k => k != x);
      } else {
        FilterOutOne(s[1..], x);
      }
    }
  }

  /** Filtering a duplicate-free sequence leaves it duplicate-free. */
  lemma {:induction false} FilterDistinct<T>(s: seq<T>, keep: T -> bool)
    requires Distinct(s)
    ensures Distinct(Filter(s, keep))
  {
    if |s| != 0 {
      FilterDistinct(s[1..], keep);
      var rest := Filter(s[1..], keep);
      if keep(s[0]) {
        assert Filter(s, keep) == [s[0]] + rest;
        forall i | 0 <= i < |rest|
          ensures rest[i] != s[0]
        {
          assert rest[i] in s[1..];
        }
      } else {
        assert Filter(s, keep) == rest;
      }
    }
  }

  /** Every member of `s` that passes the test is kept. */
  lemma FilterKeepsMembers<T>(s: seq<T>, keep: T -> bool)
    ensures forall x :: x in s && keep(x) ==> x in Filter(s, keep)
  {
    forall x | x in s && keep(x)
      ensures x in Filter(s, keep)
    {
      var i :| 0 <= i < |s| && s[i] == x;
    }
  }

  /** Two tests that agree on every element filter alike. */
  lemma {:induction false} FilterSameTest<T>(s: seq<T>, keep: T -> bool, keep': T -> bool)
    requires forall i :: 0 <= i < |s| ==> keep(s[i]) == keep'(s[i])
    ensures Filter(s, keep) == Filter(s, keep')
  {
    if |s| != 0 {
      FilterSameTest(s[1..], keep, keep');
    }
  }
}

=== FILE: demand_engine.dfy ===
/** The rule-based portion forecaster: four factor tables, a guest/occupancy
    baseline, a clamped multiplier, a ceiling-rounded recommendation and a
    fixed six-line audit trail. */
module DemandEngine {
  import opened Numeric
  import opened Text

  /** The request: meal name, guest count, occupancy and three context labels. */
  datatype DemandInputs = DemandInputs(
    targetMeal: string,
    expectedGuests: int,
    occupancyRate: real,
    weather: string,
    dayType: string,
    eventLevel: string)

  /** One line of the explanation. Each line carries the values its text
      interpolates; the text itself (and the two-decimal formatting of the
      factors) is presentation. */
  datatype ExplanationLine =
    | BaselineLine(portions: int)
    | WeatherLine(weather: string, factor: real)
    | DayLine(dayType: string, factor: real)
    | EventLine(eventLevel: string, factor: real)
    | BufferLine(targetMeal: string, factor: real)
    | MultiplierLine(multiplier: real)

  datatype DemandOutput = DemandOutput(
    recommendedPortions: int,
    baselinePortions: int,
    demandMultiplier: real,
    explanation: seq<ExplanationLine>)

  const MinMultiplier: real := 0.70
  const MaxMultiplier: real := 1.35

  /** Weather factor, case-insensitive; anything but rainy, storm or cloudy is neutral. */
  function WeatherFactor(weather: string): (f: real)
    ensures 0.82 <= f <= 1.00
  {
    var w := Lower(weather);
    if w == "rainy" then 0.88
    else if w == "storm" then 0.82
    else if w == "cloudy" then 0.96
    else 1.00
  }

  /** Day-type factor, case-insensitive; anything but weekend or holiday is neutral. */
  function DayFactor(dayType: string): (f: real)
    ensures 1.00 <= f <= 1.12
  {
    var d := Lower(dayType);
    if d == "weekend" then 1.08
    else if d == "holiday" then 1.12
    else 1.00
  }

  /** Event factor, case-insensitive; anything but high or medium is neutral. */
  function EventFactor(eventLevel: string): (f: real)
    ensures 1.00 <= f <= 1.15
  {
    var e := Lower(eventLevel);
    if e == "high" then 1.15
    else if e == "medium" then 1.07
    else 1.00
  }

  /** Meal risk buffer, chosen by substring of the lower-cased meal name,
      breakfast before lunch; every other meal gets 0.98. */
  function MealBuffer(targetMeal: string): (f: real)
    ensures 0.95 <= f <= 0.98
  {
    var m := Lower(targetMeal);
    if Contains(m, "breakfast") then 0.95
    else if Contains(m, "lunch") then 0.97
    else 0.98
  }

  /** The product of the four factors before clamping. */
  function RawMultiplier(inp: DemandInputs): real
  {
    Product(WeatherFactor(inp.weather), DayFactor(inp.dayType),
      EventFactor(inp.eventLevel), MealBuffer(inp.targetMeal))
  }

  /** The four factors multiplied in the order the source applies them. */
  function Product(wf: real, df: real, ef: real, buf: real): real
  {
    wf * df * ef * buf
  }

  /** Guests floored at zero. */
  function EffectiveGuests(inp: DemandInputs): (g: int)
    ensures g >= 0
  {
    if inp.expectedGuests < 0 then 0 else inp.expectedGuests
  }

  /** The unrounded baseline demand: guests scaled by 0.85 at zero occupancy
      up to 1.15 at full occupancy. */
  function BaselineLoad(inp: DemandInputs): real
  {
    Load(EffectiveGuests(inp), OccupancyScale(inp.occupancyRate))
  }

  /** Guests times per-guest demand. */
  function Load(guests: int, scale: real): real
  {
    guests as real * scale
  }

  /** More guests at the same per-guest demand never lower the load. */
  lemma LoadMonotone(guests: int, more: int, scale: real)
    requires guests <= more && 0.0 <= scale
    ensures Load(guests, scale) <= Load(more, scale)
  {
    MulMonotone(guests as real, more as real, scale);
  }

  /** Demand per guest: 0.85 at empty occupancy up to 1.15 at full, with the
      occupancy clamped to [0, 1] first. */
  function OccupancyScale(occupancyRate: real): (s: real)
    ensures 0.85 <= s <= 1.15
  {
    0.85 + 0.30 * Clamp(occupancyRate, 0.0, 1.0)
  }

  /** The baseline: the load rounded to the nearest portion, floored at 10. */
  function Baseline(inp: DemandInputs): (b: int)
    ensures b >= MinPortions
    ensures b as real >= BaselineLoad(inp) - 0.5
    ensures b == MinPortions || b as real <= BaselineLoad(inp) + 0.5
  {
    var b := Round(BaselineLoad(inp));
    if b < MinPortions then MinPortions else b
  }

  /** The multiplier, clamped to [0.70, 1.35]. */
  function Multiplier(inp: DemandInputs): (m: real)
    ensures MinMultiplier <= m <= MaxMultiplier
  {
    Clamp(RawMultiplier(inp), MinMultiplier, MaxMultiplier)
  }

  /** The recommendation for a baseline and multiplier: never below their
      product (ceil does not round down), overshooting it by less than one
      portion unless the floor of 10 lifts it. */
  function Recommended(baseline: int, multiplier: real): (r: int)
    ensures r >= MinPortions
    ensures r as real >= baseline as real * multiplier
    ensures r == MinPortions || (r as real) < baseline as real * multiplier + 1.0
  {
    var r := Ceil(baseline as real * multiplier);
    if r < MinPortions then MinPortions else r
  }

  /** The forecast: baseline, recommendation, multiplier and the six-line
      explanation in the order baseline, weather, day, event, meal buffer,
      final multiplier. */
  function EstimatePortions(inp: DemandInputs): (out: DemandOutput)
    ensures out.baselinePortions >= MinPortions
    ensures out.recommendedPortions >= MinPortions
    ensures MinMultiplier <= out.demandMultiplier <= MaxMultiplier
    ensures out.baselinePortions as real >= BaselineLoad(inp) - 0.5
    ensures out.baselinePortions == MinPortions
            || out.baselinePortions as real <= BaselineLoad(inp) + 0.5
    ensures out.recommendedPortions == Recommended(out.baselinePortions, out.demandMultiplier)
    ensures |out.explanation| == 6
    ensures out.explanation == [
              BaselineLine(out.baselinePortions),
              WeatherLine(inp.weather, WeatherFactor(inp.weather)),
              DayLine(inp.dayType, DayFactor(inp.dayType)),
              EventLine(inp.eventLevel, EventFactor(inp.eventLevel)),
              BufferLine(inp.targetMeal, MealBuffer(inp.targetMeal)),
              MultiplierLine(out.demandMultiplier)]
  {
    var baseline := Baseline(inp);
    var multiplier := Multiplier(inp);
    var rec := Recommended(baseline, multiplier);
    DemandOutput(
      rec, baseline, multiplier,
      [BaselineLine(baseline),
       WeatherLine(inp.weather, WeatherFactor(inp.weather)),
       DayLine(inp.dayType, DayFactor(inp.dayType)),
       EventLine(inp.eventLevel, EventFactor(inp.eventLevel)),
       BufferLine(inp.targetMeal, MealBuffer(inp.targetMeal)),
       MultiplierLine(multiplier)])
  }

  /** The recommendation covers baseline times multiplier (ceil never rounds
      down) and exceeds it by less than one portion unless the floor of 10
      lifts it. */
  lemma RecommendationCoversDemand(inp: DemandInputs)
    ensures var out := EstimatePortions(inp);
      && out.recommendedPortions as real >= out.baselinePortions as real * out.demandMultiplier
      && (out.recommendedPortions == MinPortions
          || (out.recommendedPortions as real)
             < out.baselinePortions as real * out.demandMultiplier + 1.0)
  {
    var out := EstimatePortions(inp);
    var b, m := out.baselinePortions, out.demandMultiplier;
    assert out.recommendedPortions == Recommended(b, m);
  }

  /** The four factors multiply to a value in [0.779, 1.26224]: storm on an
      ordinary breakfast is the least, a high-event holiday dinner the most. */
  lemma {:induction false} RawMultiplierBounds(inp: DemandInputs)
    ensures 0.779 <= RawMultiplier(inp) <= 1.26224
  {
    var wf, df := WeatherFactor(inp.weather), DayFactor(inp.dayType);
    var ef, buf := EventFactor(inp.eventLevel), MealBuffer(inp.targetMeal);
    MulBounds(wf, df, 0.82, 1.00, 1.00, 1.12);
    MulBounds(wf * df, ef, 0.82, 1.12, 1.00, 1.15);
    MulBounds(wf * df * ef, buf, 0.82, 1.288, 0.95, 0.98);
  }

  /** Consequently the clamp to [0.70, 1.35] never changes the multiplier. */
  lemma {:induction false} ClampNeverBinds(inp: DemandInputs)
    ensures Multiplier(inp) == RawMultiplier(inp)
    ensures EstimatePortions(inp).demandMultiplier == RawMultiplier(inp)
  {
    RawMultiplierBounds(inp);
  }

  /** The lower extreme is reached: storm on an ordinary weekday breakfast. */
  lemma LeastMultiplier()
    ensures RawMultiplier(DemandInputs("Breakfast", 0, 0.0, "Storm", "Weekday", "None")) == 0.779
  {
    assert Lower("Storm") == "storm";
    assert Lower("Weekday") == "weekday";
    assert Lower("None") == "none";
    assert Lower("Breakfast") == "breakfast";
    assert OccursAt("breakfast", "breakfast", 0);
    var wf, df, ef, buf := WeatherFactor("Storm"), DayFactor("Weekday"), EventFactor("None"), MealBuffer("Breakfast");
    assert wf == 0.82 && df == 1.00 && ef == 1.00 && buf == 0.95;
  }

  /** The upper extreme is reached: a high-event holiday dinner in sunshine. */
  lemma GreatestMultiplier()
    ensures RawMultiplier(DemandInputs("Dinner", 0, 0.0, "Sunny", "Holiday", "High")) == 1.26224
  {
    assert Lower("Sunny") == "sunny";
    assert Lower("Holiday") == "holiday";
    assert Lower("High") == "high";
    assert Lower("Dinner") == "dinner";
    assert "dinner"[0..5][0] != "lunch"[0];
    assert "dinner"[1..6][0] != "lunch"[0];
    assert !Contains("dinner", "lunch");
    var wf, df, ef, buf := WeatherFactor("Sunny"), DayFactor("Holiday"), EventFactor("High"), MealBuffer("Dinner");
    assert wf == 1.00 && df == 1.12 && ef == 1.15 && buf == 0.98;
  }

  /** The lookups ignore case: two labels that lower-case alike get the same factors. */
  lemma FactorsIgnoreCase(a: string, b: string)
    requires Lower(a) == Lower(b)
    ensures WeatherFactor(a) == WeatherFactor(b)
    ensures DayFactor(a) == DayFactor(b)
    ensures EventFactor(a) == EventFactor(b)
    ensures MealBuffer(a) == MealBuffer(b)
  {
  }

  /** Unrecognised labels are neutral: weather, day and event give 1.00 and
      a meal mentioning neither breakfast nor lunch gives 0.98. */
  lemma UnknownLabelsAreNeutral(weather: string, dayType: string, eventLevel: string, meal: string)
    requires Lower(weather) !in {"rainy", "storm", "cloudy"}
    requires Lower(dayType) !in {"weekend", "holiday"}
    requires Lower(eventLevel) !in {"high", "medium"}
    requires !Contains(Lower(meal), "breakfast") && !Contains(Lower(meal), "lunch")
    ensures WeatherFactor(weather) == 1.00 && DayFactor(dayType) == 1.00
    ensures EventFactor(eventLevel) == 1.00 && MealBuffer(meal) == 0.98
  {
  }

  /** A meal naming breakfast gets the breakfast buffer even if it also names
      lunch ("Breakfast & Lunch Buffet" is 0.95). */
  lemma BreakfastTakesPrecedence(meal: string)
    requires Contains(Lower(meal), "breakfast")
    ensures MealBuffer(meal) == 0.95
  {
  }

  /** "Lunch Buffet" lowers to a name with "lunch" and no "breakfast". */
  lemma LunchBuffetBuffer()
    ensures MealBuffer("Lunch Buffet") == 0.97
  {
    var lunch := Lower("Lunch Buffet");
    assert lunch == "lunch buffet";
    assert lunch[..5] == "lunch";
    assert OccursAt(lunch, "lunch", 0);
    forall i | 0 <= i <= 3
      ensures !OccursAt(lunch, "breakfast", i)
    {
      assert lunch[i] != 'b';
      assert "breakfast"[0] == 'b';
    }
  }

  /** "Breakfast & Lunch Buffet" lowers to a name starting with "breakfast". */
  lemma BreakfastAndLunchBuffer()
    ensures MealBuffer("Breakfast & Lunch Buffet") == 0.95
  {
    assert Lower("Breakfast & Lunch Buffet")[..9] == "breakfast";
    assert OccursAt(Lower("Breakfast & Lunch Buffet"), "breakfast", 0);
  }

  /** Concrete mixed-case labels are recognised. */
  lemma MixedCaseExample()
    ensures WeatherFactor("RaInY") == 0.88
    ensures DayFactor("HOLIDAY") == 1.12
    ensures EventFactor("Medium") == 1.07
    ensures MealBuffer("Lunch Buffet") == 0.97
    ensures WeatherFactor("STORM") == 0.82
    ensures MealBuffer("Breakfast & Lunch Buffet") == 0.95
  {
    assert Lower("RaInY") == "rainy";
    assert Lower("HOLIDAY") == "holiday";
    assert Lower("Medium") == "medium";
    assert Lower("STORM") == "storm";
    LunchBuffetBuffer();
    BreakfastAndLunchBuffer();
  }

  /** Two requests with the same load and the same labels get the same forecast. */
  lemma SameDrivers(a: DemandInputs, b: DemandInputs)
    requires BaselineLoad(a) == BaselineLoad(b)
    requires a.targetMeal == b.targetMeal && a.weather == b.weather
    requires a.dayType == b.dayType && a.eventLevel == b.eventLevel
    ensures EstimatePortions(a) == EstimatePortions(b)
  {
    assert Baseline(a) == Baseline(b);
    assert RawMultiplier(a) == RawMultiplier(b);
    assert Multiplier(a) == Multiplier(b);
    var oa, ob := EstimatePortions(a), EstimatePortions(b);
    assert oa.baselinePortions == ob.baselinePortions;
    assert oa.demandMultiplier == ob.demandMultiplier;
    assert oa.recommendedPortions == ob.recommendedPortions;
    assert oa.explanation == ob.explanation;
  }

  /** A negative guest count forecasts exactly like zero guests. */
  lemma NegativeGuestsAsZero(inp: DemandInputs)
    requires inp.expectedGuests < 0
    ensures EstimatePortions(inp) == EstimatePortions(inp.(expectedGuests := 0))
  {
    var inp' := inp.(expectedGuests := 0);
    assert EffectiveGuests(inp) == EffectiveGuests(inp');
    assert BaselineLoad(inp) == BaselineLoad(inp');
    SameDrivers(inp, inp');
  }

  /** An occupancy outside [0, 1] forecasts exactly like its clamped value. */
  lemma OccupancyClamped(inp: DemandInputs)
    ensures EstimatePortions(inp)
            == EstimatePortions(inp.(occupancyRate := Clamp(inp.occupancyRate, 0.0, 1.0)))
  {
    var inp' := inp.(occupancyRate := Clamp(inp.occupancyRate, 0.0, 1.0));
    assert OccupancyScale(inp.occupancyRate) == OccupancyScale(inp'.occupancyRate);
    assert BaselineLoad(inp) == BaselineLoad(inp');
    SameDrivers(inp, inp');
  }

  /** More guests never lower the baseline. */
  lemma {:induction false} BaselineMonotoneInGuests(inp: DemandInputs, more: int)
    requires inp.expectedGuests <= more
    ensures Baseline(inp) <= Baseline(inp.(expectedGuests := more))
    ensures EstimatePortions(inp).baselinePortions
            <= EstimatePortions(inp.(expectedGuests := more)).baselinePortions
  {
    var inp' := inp.(expectedGuests := more);
    LoadMonotone(EffectiveGuests(inp), EffectiveGuests(inp'), OccupancyScale(inp.occupancyRate));
    RoundMonotone(BaselineLoad(inp), BaselineLoad(inp'));
  }

  /** Zero guests (or fewer) always give the floor of 10 for the baseline. */
  lemma NoGuestsGiveFloor(inp: DemandInputs)
    requires inp.expectedGuests <= 0
    ensures EstimatePortions(inp).baselinePortions == MinPortions
  {
    RoundOfInt(0);
  }
}

=== FILE: demo_ml.dfy ===
/** The synthetic-data regression demo: 120 samples jittered around the
    current context, an intercept-augmented design matrix, a ridge solve
    (supplied by the caller) and a prediction floored at 10 portions. */
module DemoMl {
  import opened Numeric

  /** Numeric codes for the three context labels. The lookups are exact and
      case-sensitive; a label missing from a table encodes as 1.00. */
  const WeatherCodes: map<string, real> :=
    map["Sunny" := 1.00, "Cloudy" := 0.98, "Rainy" := 0.92, "Storm" := 0.86]
  const DayCodes: map<string, real> :=
    map["Weekday" := 1.00, "Weekend" := 1.06, "Holiday" := 1.10]
  const EventCodes: map<string, real> :=
    map["None" := 1.00, "Medium" := 1.07, "High" := 1.15]

  /** The number of synthetic samples generated per call. */
  const SampleCount: nat := 120

  /** `table.get(key, 1.00)`. */
  function Encode(table: map<string, real>, key: string): (code: real)
    ensures key in table ==> code == table[key]
    ensures key !in table ==> code == 1.00
  {
    if key in table then table[key] else 1.00
  }

  function EncodeWeather(weather: string): (code: real)
    ensures 0.86 <= code <= 1.00
    ensures weather !in WeatherCodes ==> code == 1.00
  {
    Encode(WeatherCodes, weather)
  }

  function EncodeDay(dayType: string): (code: real)
    ensures 1.00 <= code <= 1.10
    ensures dayType !in DayCodes ==> code == 1.00
  {
    Encode(DayCodes, dayType)
  }

  function EncodeEvent(eventLevel: string): (code: real)
    ensures 1.00 <= code <= 1.15
    ensures eventLevel !in EventCodes ==> code == 1.00
  {
    Encode(EventCodes, eventLevel)
  }

  /** The inputs of one prediction request. */
  datatype Context = Context(
    expectedGuests: int,
    occupancyRate: real,
    weather: string,
    dayType: string,
    eventLevel: string,
    baselinePortions: int)

  /** The six uniform draws behind one synthetic sample, already scaled to
      their ranges. */
  datatype SampleDraws = SampleDraws(
    guestJitter: real,
    occupancyJitter: real,
    weatherJitter: real,
    dayJitter: real,
    eventJitter: real,
    noise: real)

  predicate ValidDraws(d: SampleDraws)
  {
    && -0.20 <= d.guestJitter <= 0.20
    && -0.12 <= d.occupancyJitter <= 0.12
    && -0.04 <= d.weatherJitter <= 0.04
    && -0.03 <= d.dayJitter <= 0.03
    && -0.03 <= d.eventJitter <= 0.03
    && -0.03 <= d.noise <= 0.03
  }

  /** One synthetic sample: five features and a target portion count. */
  datatype Sample = Sample(
    guests: int,
    occupancy: real,
    weather: real,
    day: real,
    event: real,
    target: int)

  function Features(s: Sample): (f: seq<real>)
    ensures |f| == 5
  {
    [s.guests as real, s.occupancy, s.weather, s.day, s.event]
  }

  /** `code * (1 + jitter)`: a code perturbed by a relative jitter. */
  function Jitter(code: real, jitter: real): real
  {
    code * (1.0 + jitter)
  }

  /** A positive code jittered by at most `bound` stays within that relative band. */
  lemma JitterBounds(code: real, jitter: real, bound: real)
    requires 0.0 <= code && 0.0 <= bound <= 1.0 && -bound <= jitter <= bound
    ensures code * (1.0 - bound) <= Jitter(code, jitter) <= code * (1.0 + bound)
  {
    MulBounds(code, 1.0 + jitter, code, code, 1.0 - bound, 1.0 + bound);
  }

  /** The unrounded synthetic demand: baseline times the three jittered codes,
      an occupancy term from 0.92 to 1.08, and a noise factor. */
  function SyntheticDemand(baseline: int, wf: real, df: real, ef: real, occupancy: real, noise: real): real
  {
    baseline as real * wf * df * ef * (0.92 + 0.16 * occupancy) * (1.0 + noise)
  }

  /** One loop iteration: guests jittered and truncated (floored at 0),
      occupancy jittered and clamped to [0, 1], each code jittered, and the
      target the rounded synthetic demand, floored at 10 before rounding. */
  function GenerateSample(ctx: Context, d: SampleDraws): (s: Sample)
    requires ValidDraws(d)
    ensures s.guests >= 0
    ensures 0.0 <= s.occupancy <= 1.0
    ensures s.target >= MinPortions
    ensures EncodeWeather(ctx.weather) * 0.96 <= s.weather <= EncodeWeather(ctx.weather) * 1.04
    ensures EncodeDay(ctx.dayType) * 0.97 <= s.day <= EncodeDay(ctx.dayType) * 1.03
    ensures EncodeEvent(ctx.eventLevel) * 0.97 <= s.event <= EncodeEvent(ctx.eventLevel) * 1.03
  {
    var eg := Trunc(Jitter(ctx.expectedGuests as real, d.guestJitter));
    var eg := if eg < 0 then 0 else eg;
    var occ := Clamp(ctx.occupancyRate + d.occupancyJitter, 0.0, 1.0);
    JitterBounds(EncodeWeather(ctx.weather), d.weatherJitter, 0.04);
    JitterBounds(EncodeDay(ctx.dayType), d.dayJitter, 0.03);
    JitterBounds(EncodeEvent(ctx.eventLevel), d.eventJitter, 0.03);
    var wf := Jitter(EncodeWeather(ctx.weather), d.weatherJitter);
    var df := Jitter(EncodeDay(ctx.dayType), d.dayJitter);
    var ef := Jitter(EncodeEvent(ctx.eventLevel), d.eventJitter);
    var demand := SyntheticDemand(ctx.baselinePortions, wf, df, ef, occ, d.noise);
    var floored := if demand < MinPortions as real then MinPortions as real else demand;
    RoundMonotone(MinPortions as real, floored);
    RoundOfInt(MinPortions);
    Sample(eg, occ, wf, df, ef, Round(floored))
  }

  /** The synthetic training set, one sample per draw. */
  function Dataset(ctx: Context, draws: seq<SampleDraws>): (ds: seq<Sample>)
    requires forall i :: 0 <= i < |draws| ==> ValidDraws(draws[i])
    ensures |ds| == |draws|
  {
    seq(|draws|, i requires 0 <= i < |draws| => GenerateSample(ctx, draws[i]))
  }

  /** The sampling loop, sample by sample. Every sample it produces has
      non-negative guests, occupancy in [0, 1] and a target of at least 10. */
  method GenerateDataset(ctx: Context, draws: seq<SampleDraws>) returns (samples: seq<Sample>)
    requires |draws| == SampleCount
    requires forall i :: 0 <= i < |draws| ==> ValidDraws(draws[i])
    ensures samples == Dataset(ctx, draws)
    ensures |samples| == SampleCount
    ensures forall i :: 0 <= i < |samples| ==>
      samples[i].guests >= 0 && 0.0 <= samples[i].occupancy <= 1.0 && samples[i].target >= MinPortions
  {
    samples := [];
    var i := 0;
    while i < SampleCount
      invariant 0 <= i <= SampleCount
      invariant |samples| == i
      invariant forall j :: 0 <= j < i ==> samples[j] == GenerateSample(ctx, draws[j])
    {
      samples := samples + [GenerateSample(ctx, draws[i])];
      i := i + 1;
    }
  }

  /** The design matrix: each sample's five features behind a leading 1.0. */
  function DesignMatrix(samples: seq<Sample>): (xb: seq<seq<real>>)
    ensures |xb| == |samples|
    ensures forall i :: 0 <= i < |xb| ==> |xb[i]| == 6 && xb[i][0] == 1.0
    ensures forall i :: 0 <= i < |xb| ==> xb[i][1..] == Features(samples[i])
  {
    seq(|samples|, i requires 0 <= i < |samples| => [1.0] + Features(samples[i]))
  }

  function Targets(samples: seq<Sample>): (y: seq<real>)
    ensures |y| == |samples|
    ensures forall i :: 0 <= i < |y| ==> y[i] == samples[i].target as real
  {
    seq(|samples|, i requires 0 <= i < |samples| => samples[i].target as real)
  }

  /** The fitted coefficients, intercept first. The solve that produces them
      is outside the model. */
  datatype Weights = Weights(
    intercept: real, guests: real, occupancy: real, weather: real, day: real, event: real)

  /** The query for the real context: the intercept, then the raw guests and
      occupancy (no clamping) and the unjittered codes. */
  function QueryVector(ctx: Context): (q: seq<real>)
    ensures |q| == 6 && q[0] == 1.0
    ensures q[1] == ctx.expectedGuests as real && q[2] == ctx.occupancyRate
    ensures q[3..] == [EncodeWeather(ctx.weather), EncodeDay(ctx.dayType), EncodeEvent(ctx.eventLevel)]
  {
    [1.0, ctx.expectedGuests as real, ctx.occupancyRate,
     EncodeWeather(ctx.weather), EncodeDay(ctx.dayType), EncodeEvent(ctx.eventLevel)]
  }

  /** `feat @ w` for one query row. */
  function Dot(w: Weights, q: seq<real>): real
    requires |q| == 6
  {
    w.intercept * q[0] + w.guests * q[1] + w.occupancy * q[2]
      + w.weather * q[3] + w.day * q[4] + w.event * q[5]
  }

  /** `max(10, round(pred))`: the nearest portion count, never below 10. */
  function FinalPrediction(pred: real): (n: int)
    ensures n >= MinPortions
    ensures n == MinPortions || (pred - 0.5 <= n as real <= pred + 0.5)
    ensures pred >= MinPortions as real + 0.5 ==> pred - 0.5 <= n as real <= pred + 0.5
  {
    var r := Round(pred);
    if r < MinPortions then MinPortions else r
  }

  datatype DemoMLResult = DemoMLResult(ok: bool, predictedPortions: int)

  /** The whole demo: generate the samples, build the design matrix and
      targets, let `ridge` produce the weights, and predict for the real
      context. Whatever weights come back, the call succeeds and predicts at
      least 10 portions. */
  method TrainAndPredict(ctx: Context, draws: seq<SampleDraws>,
                         ridge: (seq<seq<real>>, seq<real>) -> Weights)
    returns (r: DemoMLResult)
    requires |draws| == SampleCount
    requires forall i :: 0 <= i < |draws| ==> ValidDraws(draws[i])
    ensures r.ok
    ensures r.predictedPortions >= MinPortions
    ensures var ds := Dataset(ctx, draws);
      r.predictedPortions
        == FinalPrediction(Dot(ridge(DesignMatrix(ds), Targets(ds)), QueryVector(ctx)))
  {
    var samples := GenerateDataset(ctx, draws);
    var w := ridge(DesignMatrix(samples), Targets(samples));
    var pred := Dot(w, QueryVector(ctx));
    r := DemoMLResult(true, FinalPrediction(pred));
  }

  /** The tables are used verbatim and case-sensitively: "rainy" is not
      "Rainy" and encodes as the neutral 1.00. */
  lemma EncodersExact()
    ensures EncodeWeather("Sunny") == 1.00 && EncodeWeather("Cloudy") == 0.98
    ensures EncodeWeather("Rainy") == 0.92 && EncodeWeather("Storm") == 0.86
    ensures EncodeDay("Weekday") == 1.00 && EncodeDay("Weekend") == 1.06 && EncodeDay("Holiday") == 1.10
    ensures EncodeEvent("None") == 1.00 && EncodeEvent("Medium") == 1.07 && EncodeEvent("High") == 1.15
    ensures EncodeWeather("rainy") == 1.00 && EncodeDay("holiday") == 1.00 && EncodeEvent("HIGH") == 1.00
  {
    assert "rainy" !in WeatherCodes;
    assert "holiday" !in DayCodes;
    assert "HIGH" !in EventCodes;
  }

  /** The query can sit outside the training data: an occupancy above 1 is
      passed to the model as is, although every sample's occupancy is at most 1. */
  lemma QueryOccupancyUnclamped(ctx: Context, draws: seq<SampleDraws>)
    requires forall i :: 0 <= i < |draws| ==> ValidDraws(draws[i])
    requires ctx.occupancyRate > 1.0
    ensures QueryVector(ctx)[2] > 1.0
    ensures forall i :: 0 <= i < |draws| ==> Dataset(ctx, draws)[i].occupancy <= 1.0
  {
  }
}

=== FILE: green_star.dfy ===
/** The Green Star display score and its separate "active" test. */
module GreenStar {

  /** Which of the two fixed explanations accompanies the result. */
  datatype Reason = ActiveReason | NotYetActiveReason

  datatype GreenStarResult = GreenStarResult(isActive: bool, score: int, reason: Reason)

  const DefaultMinReductionPct: real := 0.10
  const DefaultMinDays: int := 7

  /** Points for usage: six per day in a row, none for a negative count, at most 40. */
  function DayPoints(days: int): (pts: int)
    ensures 0 <= pts <= 40
    ensures days <= 0 ==> pts == 0
    ensures 0 <= days <= 6 ==> pts == 6 * days
    ensures pts == 40 <==> days >= 7
  {
    var d := if days < 0 then 0 else days;
    if 40 < d * 6 then 40 else d * 6
  }

  /** The credential: 60 points for reaching the reduction target plus the
      day points; active only when both the reduction and the day count reach
      their minimums. The score does not look at `minDays`. */
  function EvaluateGreenStar(reductionPct: real, daysInARow: int, minReductionPct: real, minDays: int)
    : (g: GreenStarResult)
    ensures g.score == (if reductionPct >= minReductionPct then 60 else 0) + DayPoints(daysInARow)
    ensures 0 <= g.score <= 100
    ensures g.score >= 60 <==> reductionPct >= minReductionPct
    ensures g.score % 2 == 0
    ensures g.isActive <==> reductionPct >= minReductionPct && daysInARow >= minDays
    ensures g.reason == (if g.isActive then ActiveReason else NotYetActiveReason)
  {
    var reductionPoints := if reductionPct >= minReductionPct then 60 else 0;
    var score := reductionPoints + DayPoints(daysInARow);
    var active := reductionPct >= minReductionPct && daysInARow >= minDays;
    GreenStarResult(active, score, if active then ActiveReason else NotYetActiveReason)
  }

  /** More reduction or more days never lower the score. */
  lemma ScoreMonotone(r1: real, d1: int, r2: real, d2: int, minR: real, minDays: int)
    requires r1 <= r2 && d1 <= d2
    ensures EvaluateGreenStar(r1, d1, minR, minDays).score
            <= EvaluateGreenStar(r2, d2, minR, minDays).score
  {
  }

  /** A negative day count scores exactly like zero days. */
  lemma NegativeDaysScoreAsZero(r: real, d: int, minR: real, minDays: int)
    requires d < 0
    ensures EvaluateGreenStar(r, d, minR, minDays).score == EvaluateGreenStar(r, 0, minR, minDays).score
  {
  }

  /** With the default thresholds (10 %, 7 days) the star is active exactly
      when the score is full. */
  lemma DefaultActiveIffFullScore(r: real, d: int)
    ensures var g := EvaluateGreenStar(r, d, DefaultMinReductionPct, DefaultMinDays);
      g.isActive <==> g.score == 100
  {
  }

  /** The score ignores the day threshold. */
  lemma ScoreIgnoresMinDays(r: real, d: int, minR: real, minDays1: int, minDays2: int)
    ensures EvaluateGreenStar(r, d, minR, minDays1).score
            == EvaluateGreenStar(r, d, minR, minDays2).score
  {
  }

  /** So a full score need not mean an active star: with a 10-day threshold,
      seven days at 10 % score 100 and are not active. */
  lemma FullScoreWithoutStar()
    ensures EvaluateGreenStar(0.10, 7, 0.10, 10).score == 100
    ensures !EvaluateGreenStar(0.10, 7, 0.10, 10).isActive
  {
  }
}

=== FILE: history.dfy ===
/** The dashboard's fake history: `days` rows ending today, each a jittered
    copy of today's baseline, recommendation and avoided mass. Dates are
    day ordinals; the jitter draws are parameters. */
module History {
  import opened Numeric

  /** The three uniform draws of one row, already scaled to their ranges
      (about ±8 %, ±6 % and ±15 %); no property below depends on them. */
  datatype HistoryDraws = HistoryDraws(baselineJitter: real, recommendedJitter: real, avoidedJitter: real)

  datatype HistoryRow = HistoryRow(date: int, baseline: int, recommended: int, avoidedKg: real)

  /** `max(10, int(x * (1 + jitter)))`: jittered, truncated toward zero,
      floored at 10. */
  function JitteredPortions(x: int, jitter: real): (n: int)
    ensures n >= MinPortions
  {
    var n := Trunc(x as real * (1.0 + jitter));
    if n < MinPortions then MinPortions else n
  }

  /** `round(max(0.0, x * (1 + jitter)), 2)`. */
  function JitteredMass(x: real, jitter: real): (kg: real)
    ensures kg >= 0.0
  {
    var m := x * (1.0 + jitter);
    var m := if m < 0.0 then 0.0 else m;
    RoundTo2NonNegative(m);
    RoundTo2(m)
  }

  /** One row: portions at least 10 and a non-negative avoided mass,
      whatever today's figures and the draws. */
  function HistoryRowOf(date: int, todayBaseline: int, todayRecommended: int, todayAvoidedKg: real,
                        d: HistoryDraws): (row: HistoryRow)
    ensures row.date == date
    ensures row.baseline >= MinPortions && row.recommended >= MinPortions
    ensures row.avoidedKg >= 0.0
  {
    HistoryRow(date,
               JitteredPortions(todayBaseline, d.baselineJitter),
               JitteredPortions(todayRecommended, d.recommendedJitter),
               JitteredMass(todayAvoidedKg, d.avoidedJitter))
  }

  /** The loop: row `i` is dated `days - 1 - i` days before today, so there
      are exactly `days` rows (none for a non-positive count), in strictly
      increasing date order, the last one today. */
  method GenerateFakeHistory(todayBaseline: int, todayRecommended: int, todayAvoidedKg: real,
                             days: int, today: int, draws: seq<HistoryDraws>)
    returns (rows: seq<HistoryRow>)
    requires |draws| == (if days > 0 then days else 0)
    ensures |rows| == (if days > 0 then days else 0)
    ensures forall i :: 0 <= i < |rows| ==>
      rows[i] == HistoryRowOf(today - (days - 1 - i), todayBaseline, todayRecommended,
                              todayAvoidedKg, draws[i])
    ensures forall i :: 0 <= i < |rows| ==>
      rows[i].baseline >= MinPortions && rows[i].recommended >= MinPortions && rows[i].avoidedKg >= 0.0
    ensures forall i, j :: 0 <= i < j < |rows| ==> rows[i].date < rows[j].date
    ensures days > 0 ==> rows[|rows| - 1].date == today
  {
    rows := [];
    var i := 0;
    while i < |draws|
      invariant 0 <= i <= |draws|
      invariant |rows| == i
      invariant forall k :: 0 <= k < i ==>
        rows[k] == HistoryRowOf(today - (days - 1 - k), todayBaseline, todayRecommended,
                                todayAvoidedKg, draws[k])
    {
      var row := HistoryRowOf(today - (days - 1 - i), todayBaseline, todayRecommended,
                              todayAvoidedKg, draws[i]);
      rows := rows + [row];
      i := i + 1;
    }
  }
}

=== FILE: listings.dfy ===
/** The waste-exchange page's rules, as operations on lists of listings and
    subscribers: create, claim, delete and clear listings, subscribe a
    community centre, pick the listings to announce for a date and count
    the centres notified. Ids and dates are opaque strings supplied by the
    caller. */
module Listings {
  import opened Basics

  const Available: string := "available"
  const Claimed: string := "claimed"

  datatype Listing = Listing(
    id: string,
    orgName: string,
    wasteType: string,
    quantity: int,
    availableDate: string,
    location: string,
    status: string,
    claimedBy: Option<string>)

  datatype Subscriber = Subscriber(name: string, interests: seq<string>)

  datatype CreateError = MissingNameOrLocation
  datatype ClaimError = NotAvailable | MissingClaimer
  datatype SubscribeError = MissingNameOrInterests

  /** A listing is either available and unclaimed, or claimed by a named claimer. */
  predicate WellFormed(l: Listing)
  {
    || (l.status == Available && l.claimedBy.None?)
    || (l.status == Claimed && l.claimedBy.Some? && l.claimedBy.value != "")
  }

  predicate AllWellFormed(ls: seq<Listing>)
  {
    forall i :: 0 <= i < |ls| ==> WellFormed(ls[i])
  }

  /** "Clear ALL listings". */
  function ClearListings(): (ls: seq<Listing>)
    ensures |ls| == 0
  {
    []
  }

  /** Removes every listing with the given id and keeps the rest in order. */
  function DeleteListingById(ls: seq<Listing>, id: string): (r: seq<Listing>)
    ensures forall i :: 0 <= i < |r| ==> r[i].id != id && r[i] in ls
    ensures forall i :: 0 <= i < |ls| && ls[i].id != id ==> ls[i] in r
    ensures |r| + |Filter(ls, (l: Listing) => l.id == id)| == |ls|
  {
    FilterPartition(ls, (l: Listing) => l.id != id, (l: Listing) => l.id == id);
    Filter(ls, (l: Listing) => l.id != id)
  }

  /** Deleting from two halves is deleting from each: the survivors keep
      their relative order. */
  lemma DeletePreservesOrder(a: seq<Listing>, b: seq<Listing>, id: string)
    ensures DeleteListingById(a + b, id) == DeleteListingById(a, id) + DeleteListingById(b, id)
  {
    FilterConcat(a, b, (l: Listing) => l.id != id);
  }

  /** Deleting an id nobody has changes nothing. */
  lemma DeleteAbsentId(ls: seq<Listing>, id: string)
    requires forall i :: 0 <= i < |ls| ==> ls[i].id != id
    ensures DeleteListingById(ls, id) == ls
  {
    FilterKeepsAll(ls, (l: Listing) => l.id != id);
  }

  /** Deleting twice is deleting once. */
  lemma DeleteIdempotent(ls: seq<Listing>, id: string)
    ensures DeleteListingById(DeleteListingById(ls, id), id) == DeleteListingById(ls, id)
  {
    FilterIdempotent(ls, (l: Listing) => l.id != id);
  }

  /** The "Create" form: refused unless both the organisation name and the
      location are filled in; otherwise the new listing is appended,
      available and unclaimed. */
  function CreateListing(ls: seq<Listing>, id: string, orgName: string, wasteType: string,
                         quantity: int, availableDate: string, location: string)
    : (r: Result<seq<Listing>, CreateError>)
    ensures r.Ok? <==> orgName != "" && location != ""
    ensures r.Err? ==> r.error == MissingNameOrLocation
    ensures r.Ok? ==> |r.value| == |ls| + 1 && r.value[..|ls|] == ls
    ensures r.Ok? ==> var l := r.value[|ls|];
      && l.status == Available && l.claimedBy == None && l.id == id
      && l.orgName == orgName && l.wasteType == wasteType && l.quantity == quantity
      && l.availableDate == availableDate && l.location == location
  {
    if orgName == "" || location == "" then Err(MissingNameOrLocation)
    else
      var l := Listing(id, orgName, wasteType, quantity, availableDate, location, Available, None);
      assert (ls + [l])[..|ls|] == ls;
      Ok(ls + [l])
  }

  /** The "Claim" button of listing `index`: offered only while the listing
      is available, and refused without a claimer's name. A successful claim
      marks that listing claimed by the claimer and changes nothing else. */
  function ClaimListing(ls: seq<Listing>, index: nat, claimer: string): (r: Result<seq<Listing>, ClaimError>)
    requires index < |ls|
    ensures r.Ok? <==> ls[index].status == Available && claimer != ""
    ensures ls[index].status != Available ==> r == Err(NotAvailable)
    ensures ls[index].status == Available && claimer == "" ==> r == Err(MissingClaimer)
    ensures r.Ok? ==> |r.value| == |ls|
    ensures r.Ok? ==> r.value[index] == ls[index].(status := Claimed, claimedBy := Some(claimer))
    ensures r.Ok? ==> forall j :: 0 <= j < |ls| && j != index ==> r.value[j] == ls[j]
  {
    if ls[index].status != Available then Err(NotAvailable)
    else if claimer == "" then Err(MissingClaimer)
    else Ok(ls[index := ls[index].(status := Claimed, claimedBy := Some(claimer))])
  }

  /** The page's actions on the listing file. */
  datatype ListingAction =
    | Create(id: string, orgName: string, wasteType: string, quantity: int,
             availableDate: string, location: string)
    | Claim(index: nat, claimer: string)
    | Delete(id: string)
    | Clear

  /** One action; a refused action (or a claim on a listing that is not
      shown) leaves the list as it was. */
  function Apply(ls: seq<Listing>, a: ListingAction): (r: seq<Listing>)
    ensures a.Create? ==> |r| == |ls| + 1 || r == ls
    ensures a.Create? ==> (|r| == |ls| + 1 <==> a.orgName != "" && a.location != "")
    ensures a.Claim? ==> |r| == |ls|
    ensures a.Delete? ==> |r| <= |ls|
    ensures a.Clear? ==> |r| == 0
  {
    match a
    case Create(id, org, wt, q, d, loc) =>
      (match CreateListing(ls, id, org, wt, q, d, loc)
       case Ok(ls') => ls'
       case Err(_) => ls)
    case Claim(i, who) =>
      if i < |ls| then
        (match ClaimListing(ls, i, who)
         case Ok(ls') => ls'
         case Err(_) => ls)
      else ls
    case Delete(id) => DeleteListingById(ls, id)
    case Clear => ClearListings()
  }

  /** Every action keeps every listing well formed. */
  lemma ApplyPreservesWellFormed(ls: seq<Listing>, a: ListingAction)
    requires AllWellFormed(ls)
    ensures AllWellFormed(Apply(ls, a))
  {
    match a
    case Create(id, org, wt, q, d, loc) =>
    case Claim(i, who) =>
    case Delete(id) =>
      var r := DeleteListingById(ls, id);
      forall i | 0 <= i < |r|
        ensures WellFormed(r[i])
      {
        assert r[i] in ls;
      }
    case Clear =>
  }

  /** The listings after any sequence of actions, starting from an empty file. */
  function Replay(actions: seq<ListingAction>): (ls: seq<Listing>)
    ensures |ls| <= |actions|
  {
    if |actions| == 0 then [] else Apply(Replay(actions[..|actions| - 1]), actions[|actions| - 1])
  }

  /** Whatever the page has done, every listing is available and unclaimed or
      claimed by someone. */
  lemma {:induction false} ReplayWellFormed(actions: seq<ListingAction>)
    ensures AllWellFormed(Replay(actions))
  {
    if |actions| != 0 {
      ReplayWellFormed(actions[..|actions| - 1]);
      ApplyPreservesWellFormed(Replay(actions[..|actions| - 1]), actions[|actions| - 1]);
    }
  }

  /** The dashboard's count of listings with a given status. */
  function CountStatus(ls: seq<Listing>, status: string): (n: nat)
    ensures n <= |ls|
    ensures n == 0 <==> forall i :: 0 <= i < |ls| ==> ls[i].status != status
  {
    var r := Filter(ls, (l: Listing) => l.status == status);
    assert |r| > 0 ==> r[0] in ls;
    |r|
  }

  /** For well-formed listings the dashboard's "Available" and "Claimed"
      figures add up to the total. */
  lemma AvailablePlusClaimedIsTotal(ls: seq<Listing>)
    requires AllWellFormed(ls)
    ensures CountStatus(ls, Available) + CountStatus(ls, Claimed) == |ls|
  {
    FilterPartition(ls, (l: Listing) => l.status == Available, (l: Listing) => l.status == Claimed);
  }

  /** The dashboard's "Total kg": the quantities of all listings added up. */
  function TotalKg(ls: seq<Listing>): (kg: int)
    ensures (forall i :: 0 <= i < |ls| ==> ls[i].quantity >= 0) ==> kg >= 0
    ensures (forall i :: 0 <= i < |ls| ==> ls[i].quantity >= 1) ==> kg >= |ls|
  {
    if |ls| == 0 then 0 else TotalKg(ls[..|ls| - 1]) + ls[|ls| - 1].quantity
  }

  /** Creating a listing adds its quantity to the total; a refused creation
      leaves the total alone. */
  lemma CreateAddsQuantity(ls: seq<Listing>, id: string, orgName: string, wasteType: string,
                           quantity: int, availableDate: string, location: string)
    ensures var r := CreateListing(ls, id, orgName, wasteType, quantity, availableDate, location);
            r.Ok? ==> TotalKg(r.value) == TotalKg(ls) + quantity
  {
    var r := CreateListing(ls, id, orgName, wasteType, quantity, availableDate, location);
    if r.Ok? {
      assert r.value[..|r.value| - 1] == ls;
    }
  }

  /** Replacing one listing by one of the same quantity keeps the total. */
  lemma {:induction false} TotalKgUpdate(ls: seq<Listing>, index: nat, l: Listing)
    requires index < |ls| && l.quantity == ls[index].quantity
    ensures TotalKg(ls[index := l]) == TotalKg(ls)
  {
    var ls' := ls[index := l];
    if index == |ls| - 1 {
      assert ls'[..|ls'| - 1] == ls[..|ls| - 1];
    } else {
      assert ls'[..|ls'| - 1] == ls[..|ls| - 1][index := l];
      TotalKgUpdate(ls[..|ls| - 1], index, l);
    }
  }

  /** Claiming a listing does not change the dashboard's total weight. */
  lemma ClaimKeepsTotalKg(ls: seq<Listing>, index: nat, claimer: string)
    requires index < |ls|
    ensures ClaimListing(ls, index, claimer).Ok? ==> TotalKg(ClaimListing(ls, index, claimer).value) == TotalKg(ls)
  {
    TotalKgUpdate(ls, index, ls[index].(status := Claimed, claimedBy := Some(claimer)));
  }

  /** The "Subscribe" form: refused unless a name is given and at least one
      waste type is chosen; otherwise the centre is appended. */
  function Subscribe(subs: seq<Subscriber>, name: string, interests: seq<string>)
    : (r: Result<seq<Subscriber>, SubscribeError>)
    ensures r.Ok? <==> name != "" && |interests| > 0
    ensures r.Err? ==> r.error == MissingNameOrInterests
    ensures r.Ok? ==> |r.value| == |subs| + 1 && r.value[..|subs|] == subs
    ensures r.Ok? ==> r.value[|subs|] == Subscriber(name, interests)
  {
    if name == "" || |interests| == 0 then Err(MissingNameOrInterests)
    else
      assert (subs + [Subscriber(name, interests)])[..|subs|] == subs;
      Ok(subs + [Subscriber(name, interests)])
  }

  /** The listings announced for a date: those dated that day and still
      available, in list order. */
  function TargetListings(ls: seq<Listing>, date: string): (t: seq<Listing>)
    ensures forall i :: 0 <= i < |t| ==> t[i] in ls && t[i].availableDate == date && t[i].status == Available
    ensures forall i :: 0 <= i < |ls| ==>
              (ls[i].availableDate == date && ls[i].status == Available ==> ls[i] in t)
  {
    Filter(ls, (l: Listing) => l.availableDate == date && l.status == Available)
  }

  /** A claimed listing is never announced. */
  lemma ClaimedNeverAnnounced(ls: seq<Listing>, date: string, index: nat, claimer: string)
    requires index < |ls|
    requires ClaimListing(ls, index, claimer).Ok?
    ensures ClaimListing(ls, index, claimer).value[index] !in TargetListings(ClaimListing(ls, index, claimer).value, date)
  {
  }

  /** The announced listings a subscriber is interested in. */
  function MatchedListings(sub: Subscriber, targets: seq<Listing>): (m: seq<Listing>)
    ensures forall i :: 0 <= i < |m| ==> m[i] in targets && m[i].wasteType in sub.interests
    ensures forall i :: 0 <= i < |targets| ==>
              (targets[i].wasteType in sub.interests ==> targets[i] in m)
  {
    Filter(targets, (l: Listing) => l.wasteType in sub.interests)
  }

  /** A subscriber is notified when at least one announced listing is of a
      waste type it chose. */
  predicate HasMatch(sub: Subscriber, targets: seq<Listing>)
  {
    |MatchedListings(sub, targets)| > 0
  }

  /** `HasMatch` means exactly that some target's waste type is among the
      subscriber's interests. */
  lemma HasMatchMeans(sub: Subscriber, targets: seq<Listing>)
    ensures HasMatch(sub, targets)
            <==> exists i :: 0 <= i < |targets| && targets[i].wasteType in sub.interests
  {
    var m := MatchedListings(sub, targets);
    if HasMatch(sub, targets) {
      assert m[0] in targets;
    }
    if exists i :: 0 <= i < |targets| && targets[i].wasteType in sub.interests {
      var i :| 0 <= i < |targets| && targets[i].wasteType in sub.interests;
      assert targets[i] in m;
    }
  }

  /** The subscribers (by position) that would be notified. */
  function NotifiedSubscribers(subs: seq<Subscriber>, targets: seq<Listing>): set<nat>
  {
    set i: nat | i < |subs| && HasMatch(subs[i], targets)
  }

  datatype NotifyOutcome = NoSubscribers | NoAvailableListings | Sent(sentCount: nat)

  /** "Send notifications": nothing without subscribers, nothing without
      announced listings; otherwise one notification per subscriber with at
      least one match, so never more than there are subscribers. */
  method SendNotifications(subs: seq<Subscriber>, targets: seq<Listing>) returns (outcome: NotifyOutcome)
    ensures |subs| == 0 <==> outcome == NoSubscribers
    ensures outcome == NoAvailableListings <==> |subs| > 0 && |targets| == 0
    ensures outcome.Sent? ==> outcome.sentCount == |NotifiedSubscribers(subs, targets)|
    ensures outcome.Sent? ==> outcome.sentCount <= |subs|
  {
    if |subs| == 0 {
      return NoSubscribers;
    }
    if |targets| == 0 {
      return NoAvailableListings;
    }
    var sent: nat := 0;
    var i := 0;
    while i < |subs|
      invariant 0 <= i <= |subs|
      invariant sent == |set j: nat | j < i && HasMatch(subs[j], targets)|
      invariant sent <= i
    {
      ghost var before := set j: nat | j < i && HasMatch(subs[j], targets);
      ghost var after := set j: nat | j < i + 1 && HasMatch(subs[j], targets);
      if HasMatch(subs[i], targets) {
        assert after == before + {i};
        sent := sent + 1;
      } else {
        assert after == before;
      }
      i := i + 1;
    }
    assert (set j: nat | j < |subs| && HasMatch(subs[j], targets)) == NotifiedSubscribers(subs, targets);
    return Sent(sent);
  }
}

=== FILE: mock_history.dfy ===
/** The mock training-history generator: one row per day ending today, each
    row's labels, occupancy, guests and portion counts computed from that
    day's random draws (which are parameters here). Dates are proleptic
    Gregorian ordinals, as Python's `date.toordinal()` numbers them. */
module MockHistory {
  import opened Numeric

  /** The generator only ever picks labels from these fixed lists, so they
      are closed types here; the rows' text columns are their names. */
  datatype Weather = Sunny | Cloudy | Rainy | Storm
  datatype DayType = Weekday | Weekend | Holiday
  datatype EventLevel = NoEvent | Medium | High

  /** The label lists in the order the weighted choices index them. */
  const Weathers: seq<Weather> := [Sunny, Cloudy, Rainy, Storm]
  const EventLevels: seq<EventLevel> := [NoEvent, Medium, High]

  /** `date.weekday()`: Monday is 0 and Sunday 6; ordinal 1 is a Monday. */
  function DayOfWeek(date: int): (w: int)
    ensures 0 <= w < 7
  {
    (date + 6) % 7
  }

  /** Saturdays and Sundays are weekends, every other day a weekday. */
  function PickDayType(date: int): (t: DayType)
    ensures t == Weekend <==> DayOfWeek(date) == 5 || DayOfWeek(date) == 6
    ensures t != Holiday
  {
    var w := DayOfWeek(date);
    if w == 5 || w == 6 then Weekend else Weekday
  }

  /** The draws behind one row, already scaled to their ranges; the two
      indices stand for the weighted label choices. */
  datatype MockDraws = MockDraws(
    holidayRoll: real,
    weatherIndex: nat,
    eventIndex: nat,
    baseOccupancy: real,
    dayBoost: real,
    eventBoost: real,
    guestNoise: real,
    baselineMarkup: real,
    recommendedMarkup: real,
    followRoll: real,
    followNoise: real,
    overcookNoise: real)

  predicate ValidMockDraws(d: MockDraws)
  {
    && 0.0 <= d.holidayRoll < 1.0
    && d.weatherIndex < |Weathers|
    && d.eventIndex < |EventLevels|
    && 0.45 <= d.baseOccupancy <= 0.95
    && 0.05 <= d.dayBoost <= 0.12
    && 0.05 <= d.eventBoost <= 0.10
    && -30.0 <= d.guestNoise <= 30.0
    && -0.03 <= d.baselineMarkup <= 0.05
    && -0.02 <= d.recommendedMarkup <= 0.03
    && 0.0 <= d.followRoll < 1.0
    && -0.02 <= d.followNoise <= 0.03
    && 0.04 <= d.overcookNoise <= 0.12
  }

  datatype MockRow = MockRow(
    date: int,
    expectedGuests: int,
    occupancyRate: real,
    weather: Weather,
    dayType: DayType,
    eventLevel: EventLevel,
    baselinePortions: int,
    recommendedPortions: int,
    actualCooked: int)

  /** `max(lo, min(hi, x))`, the generator's own clamp. */
  function ClampOccupancy(x: real): (r: real)
    ensures 0.30 <= r <= 0.98
    ensures 0.30 <= x <= 0.98 ==> r == x
  {
    Clamp(x, 0.30, 0.98)
  }

  /** The day type: the calendar's, unless a 6 % holiday roll overrides it. */
  function DayTypeOf(date: int, d: MockDraws): (t: DayType)
    ensures t == Holiday <==> d.holidayRoll < 0.06
    ensures t != Holiday ==> t == PickDayType(date)
  {
    if d.holidayRoll < 0.06 then Holiday else PickDayType(date)
  }

  /** Occupancy: a base draw, lifted on weekends and holidays and on
      high-event days, clamped to [0.30, 0.98]. */
  function OccupancyOf(dayType: DayType, eventLevel: EventLevel, d: MockDraws): (occ: real)
    ensures 0.30 <= occ <= 0.98
  {
    var boosted := d.baseOccupancy
      + (if dayType == Weekend || dayType == Holiday then d.dayBoost else 0.0)
      + (if eventLevel == High then d.eventBoost else 0.0);
    ClampOccupancy(boosted)
  }

  /** Expected guests: roughly 120 + 320 per unit of occupancy, with noise,
      rounded and floored at zero. */
  function ExpectedGuestsOf(occupancy: real, d: MockDraws): (g: int)
    ensures g >= 0
  {
    var g := Round(120.0 + occupancy * 320.0 + d.guestNoise);
    if g < 0 then 0 else g
  }

  /** 1.0, plus 0.08 on weekends and 0.12 on holidays. */
  function DayFactorOf(dayType: DayType): (f: real)
    ensures f == 1.0 || f == 1.08 || f == 1.12
  {
    1.0 + (if dayType == Weekend then 0.08 else 0.0) + (if dayType == Holiday then 0.12 else 0.0)
  }

  /** 1.0, plus 0.06 for a medium and 0.12 for a high event. */
  function EventFactorOf(eventLevel: EventLevel): (f: real)
    ensures f == 1.0 || f == 1.06 || f == 1.12
  {
    1.0 + (if eventLevel == Medium then 0.06 else 0.0) + (if eventLevel == High then 0.12 else 0.0)
  }

  /** 1.0, less 0.04 in rain and 0.08 in a storm. */
  function WeatherFactorOf(weather: Weather): (f: real)
    ensures f == 1.0 || f == 0.96 || f == 0.92
  {
    1.0 - (if weather == Rainy then 0.04 else 0.0) - (if weather == Storm then 0.08 else 0.0)
  }

  /** `max(10, round(x))`. */
  function AtLeastTen(x: real): (n: int)
    ensures n >= MinPortions
  {
    var n := Round(x);
    if n < MinPortions then MinPortions else n
  }

  /** `AtLeastTen` never reverses the order of two values. */
  lemma AtLeastTenMonotone(x: real, y: real)
    requires x <= y
    ensures AtLeastTen(x) <= AtLeastTen(y)
  {
    RoundMonotone(x, y);
  }

  /** The day's true need: 0.85 portions per guest scaled by the three
      factors, rounded and floored at 10. */
  function TrueNeed(guests: int, dayType: DayType, eventLevel: EventLevel, weather: Weather): (n: int)
    ensures n >= MinPortions
  {
    AtLeastTen(Times(Times(Times(guests as real * 0.85, DayFactorOf(dayType)),
                           EventFactorOf(eventLevel)), WeatherFactorOf(weather)))
  }

  /** A portion count marked up (or down) from the true need. */
  function Portions(need: int, markup: real): (n: int)
    ensures n >= MinPortions
  {
    AtLeastTen(Times(need as real, markup))
  }

  /** What the kitchen actually cooked: the recommendation with a small
      deviation when it follows it (72 %), with a 4-12 % overshoot otherwise. */
  function ActualCooked(recommended: int, d: MockDraws): (n: int)
    ensures n >= MinPortions
  {
    var deviation := if d.followRoll < 0.72 then d.followNoise else d.overcookNoise;
    AtLeastTen(Times(recommended as real, 1.0 + deviation))
  }

  /** One generated row. All portion counts are at least 10, occupancy stays
      in [0.30, 0.98] (also after rounding to hundredths), guests are not
      negative, and a weekend label means
      a Saturday or Sunday not overridden as a holiday. */
  function MockRowOf(date: int, d: MockDraws): (row: MockRow)
    requires ValidMockDraws(d)
    ensures row.date == date
    ensures row.expectedGuests >= 0
    ensures 0.30 <= row.occupancyRate <= 0.98
    ensures row.dayType == Weekend <==> d.holidayRoll >= 0.06 && (DayOfWeek(date) == 5 || DayOfWeek(date) == 6)
    ensures row.dayType == Holiday <==> d.holidayRoll < 0.06
    ensures row.baselinePortions >= MinPortions
    ensures row.recommendedPortions >= MinPortions
    ensures row.actualCooked >= MinPortions
  {
    var dayType := DayTypeOf(date, d);
    var weather := Weathers[d.weatherIndex];
    var eventLevel := EventLevels[d.eventIndex];
    var occupancy := OccupancyOf(dayType, eventLevel, d);
    var guests := ExpectedGuestsOf(occupancy, d);
    var need := TrueNeed(guests, dayType, eventLevel, weather);
    var baseline := Portions(need, 1.12 + d.baselineMarkup);
    var recommended := Portions(need, 1.03 + d.recommendedMarkup);
    RoundTo2Within(occupancy, 30, 98);
    MockRow(date, guests, RoundTo2(occupancy), weather, dayType, eventLevel,
            baseline, recommended, ActualCooked(recommended, d))
  }

  /** A larger markup never gives fewer portions. */
  lemma PortionsMonotone(need: int, markup: real, larger: real)
    requires 0 <= need && markup <= larger
    ensures Portions(need, markup) <= Portions(need, larger)
  {
    MulMonotone(markup, larger, need as real);
    AtLeastTenMonotone(Times(need as real, markup), Times(need as real, larger));
  }

  /** The generator always marks the baseline up at least as much as the
      recommendation (at least 9 % against at most 6 %), so no row's
      baseline is below its recommendation. */
  lemma BaselineCoversRecommendation(date: int, d: MockDraws)
    requires ValidMockDraws(d)
    ensures MockRowOf(date, d).recommendedPortions <= MockRowOf(date, d).baselinePortions
  {
    var dayType := DayTypeOf(date, d);
    var eventLevel := EventLevels[d.eventIndex];
    var guests := ExpectedGuestsOf(OccupancyOf(dayType, eventLevel, d), d);
    var need := TrueNeed(guests, dayType, eventLevel, Weathers[d.weatherIndex]);
    PortionsMonotone(need, 1.03 + d.recommendedMarkup, 1.12 + d.baselineMarkup);
  }

  /** Overshooting by a non-negative deviation never cooks less than the
      recommendation. */
  lemma OvershootNeverUndercuts(recommended: int, d: MockDraws)
    requires recommended >= MinPortions && d.followRoll >= 0.72 && d.overcookNoise >= 0.0
    ensures ActualCooked(recommended, d) >= recommended
  {
    MulMonotone(1.0, 1.0 + d.overcookNoise, recommended as real);
    AtLeastTenMonotone(recommended as real, Times(recommended as real, 1.0 + d.overcookNoise));
    RoundOfInt(recommended);
  }

  /** On a day the kitchen does not follow the recommendation, it cooks at
      least the recommendation. */
  lemma OvercookingNeverUndercuts(date: int, d: MockDraws)
    requires ValidMockDraws(d) && d.followRoll >= 0.72
    ensures MockRowOf(date, d).actualCooked >= MockRowOf(date, d).recommendedPortions
  {
    OvershootNeverUndercuts(MockRowOf(date, d).recommendedPortions, d);
  }

  /** The generation loop: one row per day for `days` consecutive days
      ending today (none when `days` is not positive). */
  method GenerateRows(days: int, today: int, draws: seq<MockDraws>) returns (rows: seq<MockRow>)
    requires |draws| == (if days > 0 then days else 0)
    requires forall i :: 0 <= i < |draws| ==> ValidMockDraws(draws[i])
    ensures |rows| == (if days > 0 then days else 0)
    ensures forall i :: 0 <= i < |rows| ==> rows[i] == MockRowOf(today - (days - 1) + i, draws[i])
    ensures forall i :: 0 < i < |rows| ==> rows[i].date == rows[i - 1].date + 1
    ensures days > 0 ==> rows[|rows| - 1].date == today
  {
    var start := today - (days - 1);
    rows := [];
    var i := 0;
    while i < |draws|
      invariant 0 <= i <= |draws|
      invariant |rows| == i
      invariant forall j :: 0 <= j < i ==> rows[j] == MockRowOf(start + j, draws[j])
    {
      rows := rows + [MockRowOf(start + i, draws[i])];
      i := i + 1;
    }
  }
}

=== FILE: numeric.dfy ===
/** Python's numeric built-ins as used by the application, over exact reals:
    `max(lo, min(hi, x))`, `round` (ties to even), `math.ceil`, `int(x)`
    (truncation toward zero) and `round(x, 2)`. */
module Numeric {

  /** The floor every portion count in the application is held to: `max(10, …)`. */
  const MinPortions: int := 10

  /** `x * k` as a named step, so that products stay readable in proofs. */
  function Times(x: real, k: real): real
  {
    x * k
  }

  /** A product of non-negative reals is non-negative. */
  lemma TimesNonNegative(x: real, k: real)
    requires 0.0 <= x && 0.0 <= k
    ensures 0.0 <= Times(x, k)
  {
    MulBounds(x, k, 0.0, x, 0.0, k);
  }

  /** `max(lo, min(hi, x))`. */
  function Clamp(x: real, lo: real, hi: real): (r: real)
    ensures lo <= r
    ensures lo <= hi ==> r <= hi
    ensures lo <= x <= hi ==> r == x
    ensures x <= lo ==> r == lo
    ensures lo <= hi <= x ==> r == hi
  {
    var m := if hi < x then hi else x;
    if m < lo then lo else m
  }

  /** Python 3 `round(x)`: the nearest integer, ties going to the even one. */
  function Round(x: real): (r: int)
    ensures x - 0.5 <= r as real <= x + 0.5
    ensures x - 0.5 == r as real ==> r % 2 == 0
    ensures r as real == x + 0.5 ==> r % 2 == 0
  {
    var f := x.Floor;
    var frac := x - f as real;
    if frac < 0.5 then f
    else if frac > 0.5 then f + 1
    else if f % 2 == 0 then f
    else f + 1
  }

  /** An integer rounds to itself. */
  lemma RoundOfInt(n: int)
    ensures Round(n as real) == n
  {
  }

  /** Rounding never reverses the order of two values. */
  lemma {:induction false} RoundMonotone(x: real, y: real)
    requires x <= y
    ensures Round(x) <= Round(y)
  {
    var fx, fy := x.Floor, y.Floor;
    if fx < fy {
      assert Round(x) <= fx + 1 <= fy <= Round(y);
    } else {
      assert fx == fy;
      assert x - fx as real <= y - fy as real;
    }
  }

  /** `math.ceil(x)`: the least integer not below `x`. */
  function Ceil(x: real): (r: int)
    ensures x <= r as real < x + 1.0
  {
    -((-x).Floor)
  }

  /** `int(x)` on a float: drops the fractional part, toward zero. */
  function Trunc(x: real): (r: int)
    ensures 0.0 <= x ==> 0 <= r && r as real <= x < r as real + 1.0
    ensures x < 0.0 ==> r <= 0 && r as real - 1.0 < x <= r as real
  {
    if 0.0 <= x then x.Floor else -((-x).Floor)
  }

  /** Truncation never reverses the order of two values. */
  lemma TruncMonotone(x: real, y: real)
    requires x <= y
    ensures Trunc(x) <= Trunc(y)
  {
  }

  /** `round(x, 2)`: the nearest multiple of 0.01. */
  function RoundTo2(x: real): (r: real)
    ensures x - 0.005 <= r <= x + 0.005
    ensures r * 100.0 == Round(x * 100.0) as real
  {
    Round(x * 100.0) as real / 100.0
  }

  /** Rounding to hundredths stays inside any interval whose ends are
      themselves hundredths. */
  lemma {:induction false} RoundTo2Within(x: real, lo: int, hi: int)
    requires lo as real / 100.0 <= x <= hi as real / 100.0
    ensures lo as real / 100.0 <= RoundTo2(x) <= hi as real / 100.0
  {
    RoundMonotone(lo as real, x * 100.0);
    RoundMonotone(x * 100.0, hi as real);
    RoundOfInt(lo);
    RoundOfInt(hi);
  }

  /** Positive reals multiply monotonically: bounds on each factor bound the
      product. */
  lemma {:induction false} MulBounds(a: real, b: real, aLo: real, aHi: real, bLo: real, bHi: real)
    requires 0.0 <= aLo <= a <= aHi
    requires 0.0 <= bLo <= b <= bHi
    ensures aLo * bLo <= a * b <= aHi * bHi
  {
    assert a * b - aLo * bLo == a * (b - bLo) + bLo * (a - aLo);
    assert aHi * bHi - a * b == aHi * (bHi - b) + b * (aHi - a);
  }

  /** Scaling by a non-negative factor keeps the order. */
  lemma {:induction false} MulMonotone(a: real, a': real, b: real)
    requires a <= a' && 0.0 <= b
    ensures a * b <= a' * b
  {
    assert a' * b - a * b == (a' - a) * b;
  }

  /** Rounding a non-negative value to hundredths keeps it non-negative. */
  lemma RoundTo2NonNegative(x: real)
    requires 0.0 <= x
    ensures 0.0 <= RoundTo2(x)
  {
    RoundMonotone(0.0, x * 100.0);
    RoundOfInt(0);
  }
}

=== FILE: recycler.dfy ===
/** Pickup-partner routing: a fixed three-partner catalogue scanned for the
    first partner that accepts a waste stream. */
module Recycler {
  import opened Basics

  datatype RecyclerPartner = RecyclerPartner(
    id: string,
    name: string,
    accepts: seq<string>,
    etaWindow: string,
    notes: string)

  /** The demo catalogue, in scan order. */
  function DemoPartners(): (ps: seq<RecyclerPartner>)
    ensures |ps| == 3
    ensures ps[0].id == "R1" && ps[0].accepts == ["Compost"]
    ensures ps[1].id == "R2" && ps[1].accepts == ["Biogas"]
    ensures ps[2].id == "R3" && ps[2].accepts == ["Recycle"]
  {
    [ RecyclerPartner("R1", "Bangkok Compost Co-op", ["Compost"], "18:00–20:00",
        "Accepts veg/fruit scraps, bread, rice. No plastics."),
      RecyclerPartner("R2", "City Biogas Facility", ["Biogas"], "16:00–19:00",
        "Accepts meat/fish leftovers. Sealed bags required."),
      RecyclerPartner("R3", "GreenCycle Recyclers", ["Recycle"], "10:00–12:00",
        "Accepts clean bottles/packaging. No organic waste.") ]
  }

  /** The position of the first partner accepting `stream`, if any. */
  function FirstAccepting(ps: seq<RecyclerPartner>, stream: string): (r: Option<nat>)
    ensures r.Some? ==> r.value < |ps| && stream in ps[r.value].accepts
    ensures r.Some? ==> forall j :: 0 <= j < r.value ==> stream !in ps[j].accepts
    ensures r.None? ==> forall j :: 0 <= j < |ps| ==> stream !in ps[j].accepts
  {
    if |ps| == 0 then None
    else if stream in ps[0].accepts then Some(0)
    else
      match FirstAccepting(ps[1..], stream)
      case None => None
      case Some(i) => Some(i + 1)
  }

  /** The partner for a stream: the first in catalogue order that accepts it,
      or the first partner when none does. The fallback is visible to the
      caller because the returned partner then does not accept the stream. */
  function ChoosePartner(stream: string): (p: RecyclerPartner)
    ensures p in DemoPartners()
    ensures (exists i :: 0 <= i < |DemoPartners()| && stream in DemoPartners()[i].accepts)
            ==> (exists k :: 0 <= k < |DemoPartners()| && DemoPartners()[k] == p
                   && stream in p.accepts
                   && (forall j :: 0 <= j < k ==> stream !in DemoPartners()[j].accepts))
    ensures stream !in p.accepts ==> p == DemoPartners()[0]
  {
    var partners := DemoPartners();
    match FirstAccepting(partners, stream)
    case Some(i) => partners[i]
    case None => partners[0]
  }

  /** The catalogue's ids are distinct and each partner takes exactly one stream. */
  lemma CatalogueShape()
    ensures forall i, j :: 0 <= i < j < |DemoPartners()| ==> DemoPartners()[i].id != DemoPartners()[j].id
    ensures forall i :: 0 <= i < |DemoPartners()| ==> |DemoPartners()[i].accepts| == 1
  {
  }

  /** Each stream goes to its own partner. */
  lemma StreamRouting()
    ensures ChoosePartner("Compost").id == "R1"
    ensures ChoosePartner("Biogas").id == "R2"
    ensures ChoosePartner("Recycle").id == "R3"
  {
    var ps := DemoPartners();
    assert "Compost" in ps[0].accepts;
    assert "Biogas" !in ps[0].accepts && "Biogas" in ps[1].accepts;
    assert "Recycle" !in ps[0].accepts && "Recycle" !in ps[1].accepts && "Recycle" in ps[2].accepts;
  }

  /** The fallback is used exactly when no partner accepts the stream, and it
      is then detectable from the result. */
  lemma FallbackDetectable(stream: string)
    ensures stream !in ChoosePartner(stream).accepts
            <==> forall i :: 0 <= i < |DemoPartners()| ==> stream !in DemoPartners()[i].accepts
    ensures stream !in ChoosePartner(stream).accepts ==> ChoosePartner(stream).id == "R1"
  {
  }

  /** The smart bin's Landfill stream, like any stream no partner takes,
      falls back to the first partner, which does not accept it. */
  lemma UnknownStreamFallsBack()
    ensures ChoosePartner("Landfill").id == "R1"
    ensures "Landfill" !in ChoosePartner("Landfill").accepts
    ensures ChoosePartner("Unknown").id == "R1"
    ensures "Unknown" !in ChoosePartner("Unknown").accepts
  {
    var ps := DemoPartners();
    assert forall i :: 0 <= i < |ps| ==> "Landfill" !in ps[i].accepts;
    assert forall i :: 0 <= i < |ps| ==> "Unknown" !in ps[i].accepts;
  }
}

=== FILE: savings.dfy ===
/** The savings estimator: from a baseline and a recommended portion count,
    a benchmark-aligned waste-reduction percentage and the money and mass it
    would save. */
module Savings {
  import Numeric

  /** The estimator's tunable assumptions. */
  datatype SavingsParams = SavingsParams(
    overproductionPct: real,
    reductionLo: real,
    reductionHi: real,
    gramsPerPortion: real)

  /** 10 % typical overproduction, an 8-15 % benchmark range, 180 g per portion. */
  const DefaultParams: SavingsParams := SavingsParams(0.10, 0.08, 0.15, 180.0)

  /** The notes disclosed with every estimate; the percentages they print are
      carried as values, their wording is presentation. */
  datatype SavingsNote =
    | ConservativeFallbackNote
    | PortionReductionNote
    | OverproductionNote(overproductionPct: real)
    | ReductionNote(reductionPct: real)

  datatype SavingsOutput = SavingsOutput(
    reductionPct: real,
    savingsThb: real,
    avoidedKg: real,
    notes: seq<SavingsNote>)

  /** `max(1, n)`: portion counts are floored at one. */
  function AtLeastOne(n: int): (r: int)
    ensures r >= 1 && r >= n
    ensures n >= 1 ==> r == n
  {
    if n < 1 then 1 else n
  }

  /** `max(0.0, cost)`. */
  function NonNegative(x: real): (r: real)
    ensures r >= 0.0 && r >= x
    ensures x >= 0.0 ==> r == x
  {
    if x < 0.0 then 0.0 else x
  }

  /** The recommendation does not cut below the baseline (after flooring both at one). */
  predicate NoReduction(rec: int, baseline: int)
  {
    AtLeastOne(rec) >= AtLeastOne(baseline)
  }

  /** The fraction of the baseline the recommendation removes. */
  function PortionDelta(rec: int, baseline: int): (d: real)
    ensures !NoReduction(rec, baseline) ==> 0.0 < d < 1.0
  {
    var b, r := AtLeastOne(baseline), AtLeastOne(rec);
    (b - r) as real / b as real
  }

  /** The reduction percentage: a conservative 60 % of the lower benchmark when
      nothing is cut, otherwise the cut plus a three-point uplift, capped to
      the benchmark range (`min(hi, max(lo, delta + 0.03))`). */
  function ReductionPct(rec: int, baseline: int, p: SavingsParams): (pct: real)
    ensures NoReduction(rec, baseline) ==> pct == p.reductionLo * 0.6
    ensures !NoReduction(rec, baseline) && p.reductionLo <= p.reductionHi
            ==> p.reductionLo <= pct <= p.reductionHi
    ensures !NoReduction(rec, baseline) ==> pct <= p.reductionHi
    ensures !NoReduction(rec, baseline) && p.reductionLo <= p.reductionHi
            ==> pct == Numeric.Clamp(PortionDelta(rec, baseline) + 0.03, p.reductionLo, p.reductionHi)
    ensures !NoReduction(rec, baseline) && p.reductionLo <= p.reductionHi
            ==> (pct == p.reductionLo || pct == p.reductionHi
                 || pct == PortionDelta(rec, baseline) + 0.03)
  {
    if NoReduction(rec, baseline) then p.reductionLo * 0.6
    else
      var lifted := PortionDelta(rec, baseline) + 0.03;
      var atLeastLo := if lifted < p.reductionLo then p.reductionLo else lifted;
      if p.reductionHi < atLeastLo then p.reductionHi else atLeastLo
  }

  /** Baseline overproduction (in portions) that the reduction avoids. */
  function AvoidedPortions(baseline: int, p: SavingsParams, pct: real): real
  {
    Numeric.Times(Numeric.Times(AtLeastOne(baseline) as real, p.overproductionPct), pct)
  }

  /** The estimate. Money is avoided portions times the (non-negative) unit
      cost; mass is avoided portions times grams per portion, in kilograms.
      The notes are, in order: which branch applied, the overproduction
      assumption, the reduction percentage. */
  function EstimateSavings(rec: int, baseline: int, cost: real, p: SavingsParams): (out: SavingsOutput)
    ensures out.reductionPct == ReductionPct(rec, baseline, p)
    ensures out.savingsThb == Numeric.Times(AvoidedPortions(baseline, p, out.reductionPct), NonNegative(cost))
    ensures out.avoidedKg
            == Numeric.Times(AvoidedPortions(baseline, p, out.reductionPct), p.gramsPerPortion) / 1000.0
    ensures |out.notes| == 3
    ensures out.notes[0] == (if NoReduction(rec, baseline) then ConservativeFallbackNote
                             else PortionReductionNote)
    ensures out.notes[1] == OverproductionNote(p.overproductionPct)
    ensures out.notes[2] == ReductionNote(out.reductionPct)
  {
    var pct := ReductionPct(rec, baseline, p);
    var branchNote := if NoReduction(rec, baseline) then ConservativeFallbackNote
                      else PortionReductionNote;
    var avoided := AvoidedPortions(baseline, p, pct);
    SavingsOutput(
      pct,
      Numeric.Times(avoided, NonNegative(cost)),
      Numeric.Times(avoided, p.gramsPerPortion) / 1000.0,
      [branchNote, OverproductionNote(p.overproductionPct), ReductionNote(pct)])
  }

  /** With a sensible range (0 <= lo <= hi) every percentage lies between the
      conservative fallback and the upper benchmark. */
  lemma ReductionPctRange(rec: int, baseline: int, p: SavingsParams)
    requires 0.0 <= p.reductionLo <= p.reductionHi
    ensures p.reductionLo * 0.6 <= ReductionPct(rec, baseline, p) <= p.reductionHi
  {
  }

  /** With the default assumptions every percentage lies in [4.8 %, 15 %]. */
  lemma DefaultReductionPctRange(rec: int, baseline: int)
    ensures 0.048 <= EstimateSavings(rec, baseline, 0.0, DefaultParams).reductionPct <= 0.15
  {
    ReductionPctRange(rec, baseline, DefaultParams);
  }

  /** In the reducing branch, a deeper cut never yields a smaller percentage. */
  lemma ReductionPctMonotone(rec1: int, baseline1: int, rec2: int, baseline2: int, p: SavingsParams)
    requires !NoReduction(rec1, baseline1) && !NoReduction(rec2, baseline2)
    requires PortionDelta(rec1, baseline1) <= PortionDelta(rec2, baseline2)
    ensures ReductionPct(rec1, baseline1, p) <= ReductionPct(rec2, baseline2, p)
  {
  }

  /** With non-negative assumptions the savings and the avoided mass are never
      negative, whatever the portion counts and however negative the cost. */
  lemma SavingsNonNegative(rec: int, baseline: int, cost: real, p: SavingsParams)
    requires 0.0 <= p.overproductionPct && 0.0 <= p.gramsPerPortion
    requires 0.0 <= p.reductionLo && 0.0 <= p.reductionHi
    ensures EstimateSavings(rec, baseline, cost, p).savingsThb >= 0.0
    ensures EstimateSavings(rec, baseline, cost, p).avoidedKg >= 0.0
  {
    var pct := ReductionPct(rec, baseline, p);
    assert 0.0 <= pct;
    Numeric.TimesNonNegative(AtLeastOne(baseline) as real, p.overproductionPct);
    Numeric.TimesNonNegative(Numeric.Times(AtLeastOne(baseline) as real, p.overproductionPct), pct);
    var avoided := AvoidedPortions(baseline, p, pct);
    Numeric.TimesNonNegative(avoided, NonNegative(cost));
    Numeric.TimesNonNegative(avoided, p.gramsPerPortion);
  }

  /** Money and mass are two views of the same avoided portions: savings per
      gram equal unit cost per gram, i.e. savings * grams = kg * 1000 * cost. */
  lemma SavingsAndMassAgree(rec: int, baseline: int, cost: real, p: SavingsParams)
    ensures var out := EstimateSavings(rec, baseline, cost, p);
      out.savingsThb * p.gramsPerPortion == out.avoidedKg * 1000.0 * NonNegative(cost)
  {
    var out := EstimateSavings(rec, baseline, cost, p);
    var a, c, g := AvoidedPortions(baseline, p, out.reductionPct), NonNegative(cost), p.gramsPerPortion;
    assert out.savingsThb == a * c;
    assert out.avoidedKg * 1000.0 == a * g;
    assert a * c * g == a * g * c;
  }
}

=== FILE: smart_bin.dfy ===
/** The smart-bin demo: a fixed item-to-bin catalogue, the bin check for a
    detected item, and the simulated recogniser whose random draws are
    parameters. */
module SmartBin {
  import opened Basics
  import opened Numeric

  /** Which bin each catalogued item belongs in. */
  const ItemToBin: map<string, string> := map[
    "Onion" := "Compost",
    "Carrot" := "Compost",
    "Rice" := "Compost",
    "Bread" := "Compost",
    "Chicken" := "Biogas",
    "Fish" := "Biogas",
    "Plastic Bottle" := "Recycle"]

  /** The catalogue's keys in their declaration order (the order a scan of the
      catalogue visits them). */
  const CatalogueOrder: seq<string> :=
    ["Onion", "Carrot", "Rice", "Bread", "Chicken", "Fish", "Plastic Bottle"]

  const Bins: seq<string> := ["Compost", "Biogas", "Recycle", "Landfill"]

  /** The bin for anything the catalogue does not know. */
  const DefaultBin: string := "Landfill"

  /** The verdict message, carrying the names its text interpolates. */
  datatype BinMessage =
    | CorrectBinMessage(item: string, requiredBin: string)
    | WrongBinMessage(detectedItem: string, requiredBin: string, chosenBin: string)

  datatype SmartBinResult = SmartBinResult(
    predictedItem: string,
    confidence: real,
    isCorrectBin: bool,
    message: BinMessage)

  /** A simulated recognition: the item reported and its confidence. */
  datatype Classification = Classification(item: string, confidence: real)

  /** The catalogue is well formed: its order lists each key once and nothing
      else, every bin it names is a known bin, and none of them is the default. */
  lemma CatalogueWellFormed()
    ensures Distinct(CatalogueOrder)
    ensures |CatalogueOrder| == 7
    ensures forall k :: k in CatalogueOrder <==> k in ItemToBin
    ensures forall k :: k in ItemToBin ==> ItemToBin[k] in Bins
    ensures forall k :: k in ItemToBin ==> ItemToBin[k] != DefaultBin
  {
  }

  /** `ITEM_TO_BIN.get(item, "Landfill")`. */
  function RequiredBin(item: string): (bin: string)
    ensures bin in Bins
    ensures item in ItemToBin ==> bin == ItemToBin[item]
    ensures item !in ItemToBin ==> bin == DefaultBin
  {
    if item in ItemToBin then ItemToBin[item] else DefaultBin
  }

  /** Checks a chosen bin against the detected item. The result echoes the
      item, always reports confidence 1.0, and is correct exactly when the
      chosen bin is the required one; a wrong verdict names the item, the
      required bin and the chosen bin. */
  function EvaluateBin(predictedItem: string, chosenBin: string): (r: SmartBinResult)
    ensures r.predictedItem == predictedItem
    ensures r.confidence == 1.0
    ensures r.isCorrectBin <==> chosenBin == RequiredBin(predictedItem)
    ensures r.isCorrectBin ==> r.message == CorrectBinMessage(predictedItem, chosenBin)
    ensures !r.isCorrectBin
            ==> r.message == WrongBinMessage(predictedItem, RequiredBin(predictedItem), chosenBin)
  {
    var required := RequiredBin(predictedItem);
    if required == chosenBin then
      SmartBinResult(predictedItem, 1.0, true, CorrectBinMessage(predictedItem, required))
    else
      SmartBinResult(predictedItem, 1.0, false, WrongBinMessage(predictedItem, required, chosenBin))
  }

  /** A catalogued item is accepted in its own bin and in no other. */
  lemma CatalogueItemOnlyInItsBin(item: string, chosenBin: string)
    requires item in ItemToBin
    ensures EvaluateBin(item, chosenBin).isCorrectBin <==> chosenBin == ItemToBin[item]
  {
  }

  /** An item the catalogue does not know is accepted only in landfill. */
  lemma UnknownItemOnlyInLandfill(item: string, chosenBin: string)
    requires item !in ItemToBin
    ensures EvaluateBin(item, chosenBin).isCorrectBin <==> chosenBin == DefaultBin
  {
  }

  /** Landfill is the right bin exactly for the items the catalogue does not know. */
  lemma LandfillMeansUncatalogued(item: string)
    ensures EvaluateBin(item, DefaultBin).isCorrectBin <==> item !in ItemToBin
  {
    CatalogueWellFormed();
  }

  /** `rng.uniform(lo, hi)` from a unit draw `u` in [0, 1]. */
  function Uniform(lo: real, hi: real, u: real): (x: real)
    requires lo <= hi && 0.0 <= u <= 1.0
    ensures lo <= x <= hi
  {
    MulBounds(hi - lo, u, hi - lo, hi - lo, 0.0, 1.0);
    lo + (hi - lo) * u
  }

  /** The catalogue keys other than the selected one, in catalogue order:
      every other key exactly once. */
  function OtherItems(selected: string): (others: seq<string>)
    ensures |others| >= 6
    ensures forall i :: 0 <= i < |others| ==> others[i] != selected && others[i] in ItemToBin
    ensures forall k :: k in ItemToBin && k != selected ==> k in others
    ensures Distinct(others)
  {
    var keep := k => k != selected;
    OtherItemsFacts(selected, keep);
    Filter(CatalogueOrder, keep)
  }

  lemma OtherItemsFacts(selected: string, keep: string -> bool)
    requires forall k :: keep(k) <==> k != selected
    ensures |Filter(CatalogueOrder, keep)| >= 6
    ensures forall k :: k in ItemToBin && k != selected ==> k in Filter(CatalogueOrder, keep)
    ensures Distinct(Filter(CatalogueOrder, keep))
  {
    CatalogueWellFormed();
    FilterDistinct(CatalogueOrder, keep);
    FilterKeepsMembers(CatalogueOrder, keep);
    FilterOutOne(CatalogueOrder, selected);
    assert Filter(CatalogueOrder, k => k != selected) == Filter(CatalogueOrder, keep) by {
      FilterSameTest(CatalogueOrder, k => k != selected, keep);
    }
  }

  /** The simulated recogniser. `roll` is the first unit draw, `u` the unit
      draw behind the confidence, `pick` any natural number that `rng.choice`
      reduces to an index of the other items. Below
      0.85 the selected item is reported with confidence in [0.78, 0.96];
      otherwise a different catalogued item with confidence in [0.45, 0.75]. */
  function ClassifyDemo(selected: string, roll: real, u: real, pick: nat): (c: Classification)
    requires 0.0 <= roll < 1.0 && 0.0 <= u <= 1.0
    ensures roll < 0.85 ==> c.item == selected && 0.78 <= c.confidence <= 0.96
    ensures 0.85 <= roll ==> c.item != selected && c.item in ItemToBin
                             && 0.45 <= c.confidence <= 0.75
  {
    if roll < 0.85 then
      var x := Uniform(0.78, 0.96, u);
      RoundTo2Within(x, 78, 96);
      Classification(selected, RoundTo2(x))
    else
      var x := Uniform(0.45, 0.75, u);
      RoundTo2Within(x, 45, 75);
      var others := OtherItems(selected);
      Classification(others[pick % |others|], RoundTo2(x))
  }
}

=== FILE: text.dfy ===
/** The two string operations the factor tables rely on: `str.lower()` and
    the substring test `sub in s`. */
module Text {

  /** Lower-cases an ASCII capital letter and leaves every other character alone. */
  function LowerChar(c: char): (r: char)
    ensures 'A' <= c <= 'Z' ==> 'a' <= r <= 'z'
    ensures !('A' <= c <= 'Z') ==> r == c
    ensures !('A' <= r <= 'Z')
  {
    if 'A' <= c <= 'Z' then (c as int - 'A' as int + 'a' as int) as char else c
  }

  /** `s.lower()` over the ASCII alphabet. */
  function Lower(s: string): (r: string)
    ensures |r| == |s|
    ensures forall i :: 0 <= i < |s| ==> r[i] == LowerChar(s[i])
  {
    seq(|s|, i requires 0 <= i < |s| => LowerChar(s[i]))
  }

  /** Lower-casing a lower-cased string changes nothing, so every lookup keyed
      on `Lower(s)` gives the same answer for `s` and for `Lower(s)`. */
  lemma LowerIdempotent(s: string)
    ensures Lower(Lower(s)) == Lower(s)
  {
  }

  /** `sub` occurs in `s` starting at position `i`. */
  predicate OccursAt(s: string, sub: string, i: int)
  {
    0 <= i && i + |sub| <= |s| && s[i..i + |sub|] == sub
  }

  /** `sub in s`: some window of `s` equals `sub`. */
  function Contains(s: string, sub: string): (r: bool)
    ensures r <==> exists i :: OccursAt(s, sub, i)
    decreases |s|
  {
    if |s| < |sub| then false
    else if s[..|sub|] == sub then
      assert OccursAt(s, sub, 0);
      true
    else
      ShiftOccurrence(s, sub);
      Contains(s[1..], sub)
  }

  /** Away from position 0, the occurrences in `s` are those in `s[1..]`,
      shifted by one. */
  lemma ShiftOccurrence(s: string, sub: string)
    requires |s| >= |sub| && s[..|sub|] != sub
    ensures (exists i :: OccursAt(s, sub, i)) <==> (exists j :: OccursAt(s[1..], sub, j))
  {
    forall i | OccursAt(s, sub, i)
      ensures OccursAt(s[1..], sub, i - 1)
    {
      assert i != 0;
      assert s[1..][i - 1..i - 1 + |sub|] == s[i..i + |sub|];
    }
    forall j | OccursAt(s[1..], sub, j)
      ensures OccursAt(s, sub, j + 1)
    {
      assert s[1..][j..j + |sub|] == s[j + 1..j + 1 + |sub|];
    }
  }
}
